=== FILE: README.md ===
# Market news aggregation, watchlist helpers and the auth gate — a Dafny model

This project models three parts of a stock-watchlist web application:

- **The news aggregator** (`lib/actions/finnhub.actions.ts`):
  - `getNews(symbols?)` cleans the requested ticker symbols. It trims them, upper-cases them and drops the empty ones.
  - It then takes one of two paths:
    - **Company news.** `fetchSymbolNews` runs a round-robin of at most six rounds over the cleaned symbols. It keeps a per-call cache of each symbol's valid articles and a per-symbol read offset. It emits at most one article per round and stops at six, then sorts the result newest first with a stable sort.
    - **General news.** `fetchGeneralNews` takes one page of general market news. It keeps the valid articles and drops repeats of the key `${id}-${url}-${headline}`. It stops at six and tags each article with its output index.
  - A failure of the date window or of the general-news request becomes the error "Failed to fetch news". A failed company-news request is caught inside its round, and the loop goes on to the next round.
- **The watchlist helpers** (`lib/helpers/stock-data-parser.ts`):
  - `sortStocksByMetric`: non-finite values go last.
  - `filterStocks`: optional minimum or maximum bounds, where a falsy bound is ignored.
  - `getStockPerformanceSummary`: four categorical ratings.
  - The four boolean performance flags.
- **The request middleware** (`middleware/index.ts`):
  - It tags every request that passes with its pathname and URL.
  - It lets the sign-in, sign-up and onboarding pages through.
  - It redirects other requests that have no session cookie to `/sign-in`.

Modules:

| module | file | what it holds |
|---|---|---|
| `Wrappers` | wrappers.dfy | `Option` and `Result` |
| `Seqs` | seqs.dfy | `Filter`, `Map`, `Take`, subsequences |
| `Text` | text.dfy | ECMAScript `trim`, ASCII `toUpperCase`, `startsWith`, decimal rendering of integers |
| `StableSort` | stable_sort.dfy | `Array.prototype.sort` with a comparator: a stable insertion sort and its correctness |
| `Articles` | articles.dfy | article records, the date window, and `Env`: everything the aggregator consumes from outside |
| `SymbolNews` | symbol_news.dfy | `fetchSymbolNews` |
| `Dedup` | dedup.dfy | first-occurrence-by-key deduplication |
| `GeneralNews` | general_news.dfy | `fetchGeneralNews` |
| `News` | news.dfy | `getNews` and symbol cleaning |
| `StockDataParser` | stock_data_parser.dfy | the watchlist helpers over IEEE-style numbers |
| `Middleware` | middleware.dfy | `middleware` |

How outside effects are represented:

- **The market-data provider** is a value of type `Env`:
  - `companyNews(symbol, window, round)` is the response to the request made in a given round. Two requests for the same symbol may fail and then succeed.
  - `generalNews` is the response to the single general-news request.
  - `dateRange` is what `getDateRange(5)` returns or throws.
  - `validate` and `format` stand for the helpers `validateArticle` and `formatArticle`.
- **The company-news loop** is a recursive function over a `Collector`. The collector holds the cache, the offsets, the collected articles, and a `trace` with one record per executed round. The properties are stated over the trace:
  - the symbol each round visited;
  - whether it requested the provider and with what outcome;
  - which offset it consumed.
- **JavaScript numbers** in the watchlist helpers are `Num = Finite(real) | NaN | PosInf | NegInf`.
  - Comparisons follow IEEE 754: every comparison with NaN is false.
  - Truthiness: `0` and `NaN` are falsy.
  - `Number.isFinite` is `Finite?`.

## Model

| member | source | states |
|---|---|---|
| `Text.Trim` | lib/actions/finnhub.actions.ts:44 | trimming yields "" exactly when the symbol is all whitespace; otherwise the result neither starts nor ends with ECMAScript whitespace and is no longer than the input |
| `Text.TrimCore` | lib/actions/finnhub.actions.ts:44 | the trimmed symbol is the input's own characters, taken in order from just after its leading whitespace, and everything before and after them is whitespace, so trimming removes exactly the surrounding whitespace |
| `Text.TrimIdempotent` | lib/actions/finnhub.actions.ts:44 | trimming twice is trimming once |
| `Text.ToUpper` | lib/actions/finnhub.actions.ts:44 | upper-casing keeps the length and leaves no lower-case ASCII letter; each letter `a`–`z` becomes the upper-case letter at the same alphabet position, and every other character is unchanged |
| `Text.ToUpperIdempotent` | lib/actions/finnhub.actions.ts:44 | upper-casing twice is upper-casing once |
| `Text.IntToString` | lib/actions/finnhub.actions.ts:134 | the id rendered in the dedup key is non-empty, starts with '-' exactly when the id is negative, and is otherwise made of decimal digits |
| `Text.IntToStringValue` | lib/actions/finnhub.actions.ts:134 | reading the rendered id back as a decimal number gives the id |
| `Text.IntToStringInjective` | lib/actions/finnhub.actions.ts:134 | two ids render to the same text exactly when they are equal |
| `News.CleanSymbol` | lib/actions/finnhub.actions.ts:44 | a cleaned symbol is empty exactly when the input is blank, and otherwise is a clean symbol: no surrounding whitespace, no lower-case ASCII letter |
| `News.CleanSymbolCore` | lib/actions/finnhub.actions.ts:44 | the cleaned symbol is the input's characters from just after its leading whitespace, each upper-cased, with only whitespace outside that stretch |
| `News.CleanSymbols` | lib/actions/finnhub.actions.ts:43-45 | the cleaned list is no longer than the input and holds only clean, non-empty symbols |
| `News.CleanSymbolsEmpty` | lib/actions/finnhub.actions.ts:43-47 | nothing survives cleaning exactly when every given symbol is blank, which is when `getNews` falls back to general news |
| `News.CleanSymbolsIsMapThenFilter` | lib/actions/finnhub.actions.ts:43-45 | the cleaning equals the `.map(trim+toUpperCase).filter(Boolean)` pipeline |
| `News.CleanSymbolsDropsBlanks` | lib/actions/finnhub.actions.ts:43-45 | cleaning equals dropping the blank symbols first and cleaning the rest, so order is kept and each non-blank input yields exactly one symbol |
| `News.CleanSymbolFixpoint` | lib/actions/finnhub.actions.ts:44 | a clean symbol is its own cleaning |
| `News.CleanSymbolsIdempotent` | lib/actions/finnhub.actions.ts:43-45 | cleaning an already cleaned list changes nothing |
| `News.CleanExample` | lib/actions/finnhub.actions.ts:42-51 | `["aapl", " "]` cleans to `["AAPL"]` and takes the company-news path |
| `News.GeneralPath` | lib/actions/finnhub.actions.ts:48-55 | the general path fails exactly when the general-news request fails |
| `News.GetNews` | lib/actions/finnhub.actions.ts:35-60 | the call fails exactly when the date window throws or the general path is taken and its request fails; every failure carries "Failed to fetch news"; a success has at most six articles; and it is the general-news result when no symbol survives cleaning, the company-news result for the cleaned symbols otherwise |
| `SymbolNews.PlayRound` | lib/actions/finnhub.actions.ts:77-102 | a round appends exactly one record to the trace and targets `symbols[round mod n]` |
| `SymbolNews.PlayRoundCoherent` | lib/actions/finnhub.actions.ts:80-110 | one round keeps the loop invariant: each round fetched only when no earlier fetch of its symbol succeeded; a failed fetch consumed nothing; a success cached the valid articles; the next unread cached article was consumed if any was left; cache keys are the successfully fetched symbols; offsets count consumed articles; collected articles are those emitted |
| `SymbolNews.RunRounds` | lib/actions/finnhub.actions.ts:76-111 | the loop keeps the invariant, extends the trace, and stops only after round six or once six articles are collected |
| `SymbolNews.Collect` | lib/actions/finnhub.actions.ts:70-111 | the whole collection satisfies the invariant, runs at most six rounds, and ends early only with six articles |
| `SymbolNews.RoundRobinOrder` | lib/actions/finnhub.actions.ts:76-78 | round r visits `symbols[r mod n]`, and there are at most six rounds |
| `SymbolNews.CollectBounds` | lib/actions/finnhub.actions.ts:71-106 | at most one article per round and at most six in all; the early `break` can only fire in the last round, so every call runs all six rounds |
| `SymbolNews.ConsumedInOrder` | lib/actions/finnhub.actions.ts:90-102 | two rounds of the same symbol read strictly increasing offsets, so no position of the cached list is read twice, even for a repeated symbol |
| `SymbolNews.FetchDiscipline` | lib/actions/finnhub.actions.ts:81-110 | after a successful request a symbol is never requested again; a failed request consumes nothing; a round that does not request has an earlier successful request for its symbol; a failed symbol is requested again on its next turn |
| `SymbolNews.FairWhenPlentiful` | lib/actions/finnhub.actions.ts:76-106 | when every request succeeds with at least six valid articles, all six rounds run and each emits one article of `symbols[r mod n]` |
| `SymbolNews.NewestFirst` | lib/actions/finnhub.actions.ts:114 | the comparator is negative exactly when `a` is newer than `b`, and zero exactly when both have the same timestamp |
| `SymbolNews.NewestFirstConsistent` | lib/actions/finnhub.actions.ts:114 | the comparator `b.datetime - a.datetime` is a consistent total preorder |
| `SymbolNews.SortNewestFirst` | lib/actions/finnhub.actions.ts:114 | the sort is a permutation, puts newer articles first, and keeps the collection order among articles with the same timestamp |
| `SymbolNews.FetchSymbolNews` | lib/actions/finnhub.actions.ts:65-115 | the result has at most six articles, is a permutation of the round-robin collection, is newest first, and keeps equal timestamps in round order |
| `GeneralNews.MissingFieldIsUndefinedText` | lib/actions/finnhub.actions.ts:134 | a missing url or headline is rendered as the text "undefined", so its key equals the key of the same article with that field set to "undefined" |
| `GeneralNews.DedupKeyLayout` | lib/actions/finnhub.actions.ts:134 | the key starts with the rendered id, followed by the first '-' after its sign, and that prefix reads back as the id |
| `GeneralNews.DedupKeyDeterminesId` | lib/actions/finnhub.actions.ts:134 | equal keys imply equal ids: only url and headline can make two keys collide |
| `GeneralNews.DedupLoop` | lib/actions/finnhub.actions.ts:128-144 | the loop with its `seen` set and early `break` yields the first six of the key-deduplicated valid articles |
| `GeneralNews.FetchGeneralNews` | lib/actions/finnhub.actions.ts:128-149 | at most six articles, the i-th the general-news formatting of the i-th selected article with index i |
| `GeneralNews.GeneralNewsSelection` | lib/actions/finnhub.actions.ts:128-144 | the selected articles are valid, have pairwise different keys, appear in provider order, and are each the first valid article with their key; when fewer than six are kept, every valid article's key is among them |
| `GeneralNews.SameTripleSameKey` | lib/actions/finnhub.actions.ts:134 | equal (id, url, headline) triples give equal keys, so no two kept articles share a triple |
| `GeneralNews.KeyCollision` | lib/actions/finnhub.actions.ts:134-138 | two articles with different urls and headlines can share a key; only the first is kept |
| `Dedup.FirstByKeyDistinct` | lib/actions/finnhub.actions.ts:134-138 | first-occurrence deduplication leaves pairwise different keys |
| `Dedup.FirstByKeyFirst` | lib/actions/finnhub.actions.ts:134-138 | each kept element is the first element of the input with its key |
| `StableSort.Sort` | lib/actions/finnhub.actions.ts:114 | the comparator sort is a permutation, is ordered by the comparator, and keeps every class of tied elements in input order |
| `StableSort.SortSorted` | lib/actions/finnhub.actions.ts:114 | an already ordered sequence comes back unchanged |
| `StockDataParser.CompareKeys` | lib/helpers/stock-data-parser.ts:51-61 | the comparator is negative exactly when `a` is finite and either `b` is not, or `a` comes first in the direction; it is zero exactly when both keys are equal |
| `StockDataParser.ByMetricConsistent` | lib/helpers/stock-data-parser.ts:51-61 | the comparator on stocks through their metric is a consistent total preorder, as a stable sort needs |
| `StockDataParser.CompareKeysConsistent` | lib/helpers/stock-data-parser.ts:51-61 | the metric comparator flips sign under swap, is transitive, and ties only on equal keys (both non-finite, or equal finite values) |
| `StockDataParser.SortStocksByMetric` | lib/helpers/stock-data-parser.ts:46-62 | the result is a permutation; finite values are descending (or ascending for "asc"); no non-finite value precedes a finite one; stocks with equal keys keep their input order |
| `StockDataParser.SortStocksIdempotent` | lib/helpers/stock-data-parser.ts:46-62 | sorting a sorted list by the same metric and direction changes nothing |
| `StockDataParser.FilterStocks` | lib/helpers/stock-data-parser.ts:67-102 | the result is a subsequence of the input, holds only passing stocks, and holds every passing stock; each stock occurs as often as in the input when it passes and not at all otherwise |
| `StockDataParser.PassesIffMeetsBounds` | lib/helpers/stock-data-parser.ts:78-100 | for stocks whose filtered metrics are not NaN, a stock passes exactly when it meets every truthy bound |
| `StockDataParser.NaNMetricsPass` | lib/helpers/stock-data-parser.ts:78-98 | a stock whose filtered metrics are NaN passes every filter, although it meets no active bound when one is set |
| `StockDataParser.PassesIffMeetsBoundsSkippingNaN` | lib/helpers/stock-data-parser.ts:78-100 | for every stock, mixed NaN and numeric metrics included, it passes exactly when each truthy bound whose metric is a number is met |
| `StockDataParser.MixedNaNExample` | lib/helpers/stock-data-parser.ts:78-100 | a stock with a NaN P/E and a market cap of 5 is rejected by a minimum market cap of 10, but passes a maximum P/E of 20 that it does not meet |
| `StockDataParser.ActiveOnly` | lib/helpers/stock-data-parser.ts:78-96 | replacing every falsy bound by "absent" does not change which stocks pass |
| `StockDataParser.FalsyBoundsAreIgnored` | lib/helpers/stock-data-parser.ts:78-96 | filtering with falsy bounds dropped gives the same list |
| `StockDataParser.InactiveFiltersKeepAll` | lib/helpers/stock-data-parser.ts:76-101 | with no truthy bound every stock is kept |
| `StockDataParser.ZeroBoundsKeepAll` | lib/helpers/stock-data-parser.ts:76-101 | absent bounds and bounds of 0 both keep every stock |
| `StockDataParser.FilterStocksIdempotent` | lib/helpers/stock-data-parser.ts:76-101 | filtering twice with the same filters is filtering once |
| `StockDataParser.ExceededMonotone` | lib/helpers/stock-data-parser.ts:120-142 | a larger value exceeds at least as many thresholds |
| `StockDataParser.ValuationOf` | lib/helpers/stock-data-parser.ts:113-117 | "Undervalued" exactly when P/E < 15, "Expensive" exactly when P/E > 30, and the tier counts those comparisons |
| `StockDataParser.GrowthOf` | lib/helpers/stock-data-parser.ts:120-125 | the growth tier is the number of thresholds 0, 10, 25 that revenue growth exceeds |
| `StockDataParser.RiskOf` | lib/helpers/stock-data-parser.ts:128-133 | the risk tier is the number of thresholds 0.5, 1, 1.5 that beta exceeds |
| `StockDataParser.ProfitabilityOf` | lib/helpers/stock-data-parser.ts:136-142 | the profitability tier is the number of thresholds 0, 10, 15, 20 that ROE exceeds |
| `StockDataParser.GetStockPerformanceSummary` | lib/helpers/stock-data-parser.ts:107-146 | the summary keeps symbol and company, and each rating is characterised by its thresholds |
| `StockDataParser.SummaryMonotone` | lib/helpers/stock-data-parser.ts:113-142 | a stock with metrics no smaller never gets a lower valuation, growth, risk or profitability tier |
| `StockDataParser.LabelsDistinct` | lib/helpers/stock-data-parser.ts:114-141 | the label strings within each rating are pairwise different |
| `StockDataParser.FlagsOf` | lib/helpers/stock-data-parser.ts:36-39 | the YTD, 52-week and profitable flags hold exactly when their metric is above 0, and the growth flag exactly when revenue growth is above 20 (above means a larger finite number or +Infinity); "profitable" agrees with the summary's "not Unprofitable"; a high-growth rating implies a growth stock, and a growth stock is at least moderate growth |
| `Middleware.IsExempt` | middleware/index.ts:12-16 | a path is exempt exactly when one of its prefixes is `/sign-in`, `/sign-up` or `/onboarding` |
| `Middleware.SignInUrl` | middleware/index.ts:24 | the redirect target is the request's origin followed by `/sign-in`, and that path is exempt |
| `Middleware.Middleware` | middleware/index.ts:4-28 | the request passes exactly when its path is exempt or it carries a non-empty session cookie; the headers the middleware sets on a passing response are exactly `x-pathname` and `x-url`, with the request's values; a redirect goes to the origin's `/sign-in` |
| `Middleware.ExemptIgnoresCookie` | middleware/index.ts:12-18 | on an exempt path the cookie makes no difference, and the request passes |
| `Middleware.SessionPasses` | middleware/index.ts:20-27 | a request with a session passes with the two headers |
| `Middleware.NoRedirectLoop` | middleware/index.ts:12-25 | the redirect's location lies under the request's origin, and the request for its path passes whatever the cookie, so a redirect is never followed by another |
| `Middleware.PrefixExamples` | middleware/index.ts:12-16 | the plain prefix test exempts `/onboarding/step2`, `/sign-inx` and `/sign-up` but not `/` or `/watchlist` |

## Notes on the code

- **Dedup key.** The comment at lib/actions/finnhub.actions.ts:127 says articles are deduplicated by id, url and headline. Line 134 builds the concatenated string `${id}-${url}-${headline}` instead. Equal triples still give equal keys (`GeneralNews.SameTripleSameKey`), and equal keys still mean equal ids (`GeneralNews.DedupKeyDeterminesId`). Different urls and headlines can collide, and then the second article is dropped (`GeneralNews.KeyCollision`).
- **Repeated symbols.** `getNews` passes the cleaned symbols on as a list, repeats included. A repeated symbol shares one cache entry and one offset, so it never reads the same position of the cached list twice (`SymbolNews.ConsumedInOrder`). The symbol path does not deduplicate, so an article the provider lists twice, or lists for two symbols, can appear twice.

## Left out

- HTTP, URLs, the API key and cache options of `fetchJSON` (lib/actions/finnhub.actions.ts:11-27). Every provider response is a parameter (`Env.companyNews`, `Env.generalNews`). A thrown request is a `Failure`.
- The bodies of `validateArticle`, `formatArticle` and `getDateRange`: lib/utils is not part of this model. They are uninterpreted parameters. `validateArticle` and `formatArticle` are assumed not to throw; `getDateRange` yields either a window or a `Failure`.
- `DateWindow`: its contents are opaque, and the date arithmetic of the five-day window is not modelled.
- `console.error` logging in `getNews` and `fetchSymbolNews`: it has no effect on the result.
- `async`/`await`: the calls are awaited one at a time, so they are modelled as sequential function calls.
- Article timestamps and ids: modelled as unbounded integers, because the provider's values are integral seconds and ids.
- `Text.ToUpper`: changes only the ASCII letters `a`–`z`, not every Unicode lower-case letter `toUpperCase` maps. Ticker symbols are ASCII.
- IEEE rounding in `sortStocksByMetric`: finite numbers are exact reals. Nothing is lost by this. The comparator uses only the sign of `valueB - valueA`, and for finite doubles that sign is always exact: gradual underflow keeps a non-zero difference non-zero, and an overflow to an infinity keeps the sign.
- `Text.IntToString`: renders every id in plain decimal. JavaScript writes a number of magnitude 10^21 or more in exponent form, such as `1e+21`. Provider ids are far below that, so exponent form is not modelled.
- The `rawMetrics` field of a stock: the helpers never read inside it. Sorting by it compares as non-finite, like the string fields.
- `formatParsedDataForDisplay`'s formatted strings, `parseExampleStockData` and the demonstration functions in lib/helpers/stock-data-parser.ts: they only call the formatting helpers of lib/utils, which is not part of this model. Of `formatParsedDataForDisplay`, only the four flags are modelled (`StockDataParser.FlagsOf`).
- `getSessionCookie`'s cookie parsing: the cookie it finds is a field of the request.
- `new URL('/sign-in', request.url)`: modelled as the request's origin followed by `/sign-in`. URL parsing is not modelled.
- The middleware's `config.matcher` (middleware/index.ts:30-32): routing to the middleware is the framework's job.
- The rest of the repository (other server actions, the database layer, background jobs, UI components): outside the modelled core.

=== FILE: articles.dfy ===
/** The news records the aggregator reads and returns, and everything the
    aggregator consumes from outside: the market-data provider, the date
    window and the two article helpers whose bodies are not part of this
    model (`validateArticle` and `formatArticle`). */
module Articles {
  import opened Wrappers

  /** An article as the provider returns it; every field but `id` may be
      missing. Timestamps are unix seconds. */
  datatype RawNewsArticle = RawNewsArticle(
    id: int,
    headline: Option<string>,
    summary: Option<string>,
    source: Option<string>,
    url: Option<string>,
    datetime: Option<int>,
    image: Option<string>,
    category: Option<string>,
    related: Option<string>)

  /** An article as the aggregator returns it. */
  datatype MarketNewsArticle = MarketNewsArticle(
    id: int,
    headline: string,
    summary: string,
    source: string,
    url: string,
    datetime: int,
    category: string,
    related: string,
    image: Option<string>)

  /** The `from`/`to` dates of the five-day window. */
  datatype DateWindow = DateWindow(from: string, to: string)

  /** What one provider request yields: the parsed JSON array, or the error
      a non-2xx status (or a network failure) throws. */
  type Fetched = Result<seq<RawNewsArticle>, string>

  /** Everything outside the aggregator, fixed for one call:
      - `validate`, `format`: the article helpers, left uninterpreted;
        `format(article, isCompanyNews, symbol, index)`.
      - `dateRange`: what `getDateRange(5)` returns or throws.
      - `companyNews(symbol, window, round)`: the response to the company-news
        request made in that round; rounds are distinct attempts, so a
        symbol that failed may succeed when it is asked again.
      - `generalNews`: the response to the single general-news request. */
  datatype Env = Env(
    validate: RawNewsArticle -> bool,
    format: (RawNewsArticle, bool, Option<string>, nat) -> MarketNewsArticle,
    dateRange: Result<DateWindow, string>,
    companyNews: (string, DateWindow, nat) -> Fetched,
    generalNews: Fetched)

  /** The most articles a call returns, and the number of round-robin rounds. */
  const MaxArticles: nat := 6
  const MaxRounds: nat := 6
}

=== FILE: dedup.dfy ===
/** First-occurrence deduplication by a key, the reference against which
    the general-news loop (a `Set` of seen keys) is proved. */
module Dedup {
  import opened Wrappers
  import opened Seqs

  /** The keys of the elements of `s`. */
  function KeySet<T, K(==)>(s: seq<T>, key: T -> K): set<K> {
    set i | 0 <= i < |s| :: key(s[i])
  }

  /** The elements of `s` whose key does not occur earlier in `s`, in order. */
  function FirstByKey<T, K(==)>(s: seq<T>, key: T -> K): seq<T>
    decreases |s|
  {
    if s == [] then []
    else
      var n := |s| - 1;
      FirstByKey(s[..n], key) + (if key(s[n]) in KeySet(s[..n], key) then [] else [s[n]])
  }

  /** The first element of `s` with key `k`, if any. */
  function FirstWithKey<T, K(==)>(s: seq<T>, key: T -> K, k: K): Option<T>
    decreases |s|
  {
    if s == [] then None
    else if key(s[0]) == k then Some(s[0])
    else FirstWithKey(s[1..], key, k)
  }

  lemma KeySetAppend<T, K>(s: seq<T>, x: T, key: T -> K)
    ensures KeySet(s + [x], key) == KeySet(s, key) + {key(x)}
  {
    var t := s + [x];
    forall k | k in KeySet(t, key) ensures k in KeySet(s, key) + {key(x)} {
      var i :| 0 <= i < |t| && key(t[i]) == k;
      if i < |s| {
        assert t[i] == s[i];
      }
    }
    forall k | k in KeySet(s, key) ensures k in KeySet(t, key) {
      var i :| 0 <= i < |s| && key(s[i]) == k;
      assert t[i] == s[i];
    }
    assert key(t[|s|]) in KeySet(t, key);
  }

  lemma FirstByKeyStep<T, K>(s: seq<T>, x: T, key: T -> K)
    ensures FirstByKey(s + [x], key) == FirstByKey(s, key) + (if key(x) in KeySet(s, key) then [] else [x])
  {
    assert (s + [x])[..|s|] == s;
  }

  /** Deduplication keeps one element of every key. */
  lemma {:induction false} KeySetFirstByKey<T, K>(s: seq<T>, key: T -> K)
    ensures KeySet(FirstByKey(s, key), key) == KeySet(s, key)
    decreases |s|
  {
    if s != [] {
      var n := |s| - 1;
      var p := FirstByKey(s[..n], key);
      assert s == s[..n] + [s[n]];
      KeySetFirstByKey(s[..n], key);
      KeySetAppend(s[..n], s[n], key);
      KeySetAppend(p, s[n], key);
      if key(s[n]) in KeySet(s[..n], key) {
        assert FirstByKey(s, key) == p;
      } else {
        assert FirstByKey(s, key) == p + [s[n]];
      }
    }
  }

  /** Deduplicating a prefix yields a prefix of deduplicating the whole. */
  lemma {:induction false} FirstByKeyPrefix<T, K>(s: seq<T>, t: seq<T>, key: T -> K)
    ensures FirstByKey(s, key) <= FirstByKey(s + t, key)
    decreases |t|
  {
    if t == [] {
      assert s + t == s;
    } else {
      var n := |t| - 1;
      assert s + t == (s + t[..n]) + [t[n]];
      FirstByKeyPrefix(s, t[..n], key);
      FirstByKeyStep(s + t[..n], t[n], key);
    }
  }

  /** No two kept elements share a key. */
  lemma {:induction false} FirstByKeyDistinct<T, K>(s: seq<T>, key: T -> K)
    ensures var r := FirstByKey(s, key);
      forall i, j :: 0 <= i < j < |r| ==> key(r[i]) != key(r[j])
    decreases |s|
  {
    if s != [] {
      var n := |s| - 1;
      FirstByKeyDistinct(s[..n], key);
      KeySetFirstByKey(s[..n], key);
      var p := FirstByKey(s[..n], key);
      var r := FirstByKey(s, key);
      forall i, j | 0 <= i < j < |r| ensures key(r[i]) != key(r[j]) {
        if j == |p| {
          assert r[j] == s[n] && r[i] == p[i];
          assert key(p[i]) in KeySet(p, key);
        } else {
          assert r[i] == p[i] && r[j] == p[j];
        }
      }
    }
  }

  /** The kept elements appear in the input in the same order. */
  lemma {:induction false} FirstByKeySubsequence<T, K>(s: seq<T>, key: T -> K)
    ensures Subsequence(FirstByKey(s, key), s)
    decreases |s|
  {
    if s != [] {
      var n := |s| - 1;
      FirstByKeySubsequence(s[..n], key);
      SubsequenceSnoc(FirstByKey(s[..n], key), s[..n], s[n], key(s[n]) !in KeySet(s[..n], key));
      assert s[..n] + [s[n]] == s;
    }
  }

  lemma KeySetCons<T, K>(s: seq<T>, key: T -> K, k: K)
    requires s != []
    ensures k in KeySet(s, key) <==> key(s[0]) == k || k in KeySet(s[1..], key)
  {
    forall i | 0 < i < |s| ensures key(s[i]) in KeySet(s[1..], key) {
      assert s[1..][i - 1] == s[i];
    }
    forall i | 0 <= i < |s| - 1 ensures key(s[1..][i]) in KeySet(s, key) {
      assert s[1..][i] == s[i + 1];
    }
  }

  /** Scanning one more element: the first element of a key stays first. */
  lemma {:induction false} FirstWithKeyAppend<T, K>(s: seq<T>, x: T, key: T -> K, k: K)
    ensures FirstWithKey(s + [x], key, k) ==
      if k in KeySet(s, key) then FirstWithKey(s, key, k) else if key(x) == k then Some(x) else None
    decreases |s|
  {
    if s == [] {
      assert s + [x] == [x];
      assert [x][1..] == [];
    } else {
      assert (s + [x])[1..] == s[1..] + [x];
      FirstWithKeyAppend(s[1..], x, key, k);
      KeySetCons(s, key, k);
    }
  }

  /** First occurrence wins: each kept element is the first element of the
      input with its key. */
  lemma {:induction false} FirstByKeyFirst<T, K>(s: seq<T>, key: T -> K)
    ensures var r := FirstByKey(s, key);
      forall i :: 0 <= i < |r| ==> FirstWithKey(s, key, key(r[i])) == Some(r[i])
    decreases |s|
  {
    if s != [] {
      var n := |s| - 1;
      FirstByKeyFirst(s[..n], key);
      KeySetFirstByKey(s[..n], key);
      assert s == s[..n] + [s[n]];
      var p := FirstByKey(s[..n], key);
      var r := FirstByKey(s, key);
      forall i | 0 <= i < |r| ensures FirstWithKey(s, key, key(r[i])) == Some(r[i]) {
        FirstWithKeyAppend(s[..n], s[n], key, key(r[i]));
        if i < |p| {
          assert r[i] == p[i];
          assert key(p[i]) in KeySet(p, key);
        }
      }
    }
  }
}

=== FILE: general_news.dfy ===
/** General market news: the provider's single page of articles, validated,
    deduplicated by a composite string key, capped at six and tagged with
    their output index (`fetchGeneralNews`, lib/actions/finnhub.actions.ts). */
module GeneralNews {
  import opened Wrappers
  import opened Articles
  import opened Seqs
  import opened Dedup
  import Text

  /** How a template literal renders an optional string: a missing field
      becomes the text "undefined". */
  function TemplateText(o: Option<string>): (r: string)
    ensures o.Some? ==> r == o.value
    ensures o.None? ==> r == "undefined"
  {
    match o
    case Some(v) => v
    case None => "undefined"
  }

  /** The deduplication key `${id}-${url}-${headline}`. */
  function DedupKey(a: RawNewsArticle): string {
    Text.IntToString(a.id) + "-" + TemplateText(a.url) + "-" + TemplateText(a.headline)
  }

  /** The decimal id comes first in the key and is followed by the first
      '-' after its sign, so the id can be read back from the key. */
  lemma {:induction false} DedupKeyLayout(a: RawNewsArticle)
    ensures var r, n := DedupKey(a), |Text.IntToString(a.id)|;
      && n < |r| && r[n] == '-'
      && Text.IntValue(r[..n]) == a.id
      && forall i :: 1 <= i < n ==> r[i] != '-'
  {
    var id := Text.IntToString(a.id);
    assert DedupKey(a)[..|id|] == id;
    Text.IntToStringValue(a.id);
  }

  /** A missing url or headline is rendered as the text "undefined", so
      its key is the key of an article whose field holds that text. */
  lemma {:induction false} MissingFieldIsUndefinedText(a: RawNewsArticle)
    ensures a.url.None? ==> DedupKey(a) == DedupKey(a.(url := Some("undefined")))
    ensures a.headline.None? ==> DedupKey(a) == DedupKey(a.(headline := Some("undefined")))
  {
  }

  /** Articles with different ids never share a key: only url and headline
      can make two keys collide. */
  lemma DedupKeyDeterminesId(a: RawNewsArticle, b: RawNewsArticle)
    requires DedupKey(a) == DedupKey(b)
    ensures a.id == b.id
  {
    DedupKeyLayout(a);
    DedupKeyLayout(b);
    var m, n := |Text.IntToString(a.id)|, |Text.IntToString(b.id)|;
    assert m == n;
    assert DedupKey(a)[..m] == DedupKey(b)[..n];
  }

  /** The `for (const article of articles)` loop from position `i` on, with
      the `seen` key set and the `deduplicated` list built so far. */
  function DedupLoop(articles: seq<RawNewsArticle>, validate: RawNewsArticle -> bool,
                     i: nat, seen: set<string>, kept: seq<RawNewsArticle>): (r: seq<RawNewsArticle>)
    requires i <= |articles|
    requires |kept| < MaxArticles
    requires kept == FirstByKey(Filter(validate, articles[..i]), DedupKey)
    requires seen == KeySet(kept, DedupKey)
    ensures r == Take(FirstByKey(Filter(validate, articles), DedupKey), MaxArticles)
    decreases |articles| - i
  {
    if i == |articles| then
      assert articles[..i] == articles;
      kept
    else
      var a := articles[i];
      if !validate(a) then
        LoopStep(articles, validate, DedupKey, i, seen, kept);
        DedupLoop(articles, validate, i + 1, seen, kept)
      else
        var key := DedupKey(a);
        var seen' := if key in seen then seen else seen + {key};
        var kept' := if key in seen then kept else kept + [a];
        LoopStep(articles, validate, DedupKey, i, seen, kept);
        if |kept'| >= MaxArticles then
          LoopBreak(articles, validate, DedupKey, i + 1, kept');
          kept'
        else
          DedupLoop(articles, validate, i + 1, seen', kept')
  }

  /** One iteration keeps the loop invariant: the kept list is the
      deduplication of the valid articles scanned so far, and the seen set
      holds exactly their keys. */
  lemma LoopStep<T, K>(xs: seq<T>, p: T -> bool, key: T -> K, i: nat, seen: set<K>, kept: seq<T>)
    requires i < |xs|
    requires kept == FirstByKey(Filter(p, xs[..i]), key)
    requires seen == KeySet(kept, key)
    ensures !p(xs[i]) ==> kept == FirstByKey(Filter(p, xs[..i + 1]), key)
    ensures p(xs[i]) ==>
      var seen' := if key(xs[i]) in seen then seen else seen + {key(xs[i])};
      var kept' := if key(xs[i]) in seen then kept else kept + [xs[i]];
      kept' == FirstByKey(Filter(p, xs[..i + 1]), key) && seen' == KeySet(kept', key)
  {
    FilterStep(p, xs, i);
    assert Filter(p, xs[..i]) + [] == Filter(p, xs[..i]);
    FirstByKeyStep(Filter(p, xs[..i]), xs[i], key);
    KeySetFirstByKey(Filter(p, xs[..i]), key);
    KeySetAppend(kept, xs[i], key);
  }

  /** Leaving the loop early: once six articles are kept after scanning a
      prefix, scanning the rest would not change the first six. */
  lemma LoopBreak<T, K>(xs: seq<T>, p: T -> bool, key: T -> K, i: nat, kept: seq<T>)
    requires i <= |xs|
    requires kept == FirstByKey(Filter(p, xs[..i]), key) && |kept| == MaxArticles
    ensures kept == Take(FirstByKey(Filter(p, xs), key), MaxArticles)
  {
    FilterSplit(p, xs, i);
    FirstByKeyPrefix(Filter(p, xs[..i]), Filter(p, xs[i..]), key);
    TakeOfExtension(kept, FirstByKey(Filter(p, xs), key), MaxArticles);
  }

  lemma TakeOfExtension<T>(prefix: seq<T>, whole: seq<T>, n: nat)
    requires prefix <= whole && |prefix| == n
    ensures Take(whole, n) == prefix
  {
  }

  /** `fetchGeneralNews` once the request has succeeded: the first six
      distinct valid articles, the i-th formatted as general news (not
      company news, no symbol) with index i. */
  function FetchGeneralNews(articles: seq<RawNewsArticle>, env: Env): (r: seq<MarketNewsArticle>)
    ensures |r| <= MaxArticles
    ensures var d := Take(FirstByKey(Filter(env.validate, articles), DedupKey), MaxArticles);
      |r| == |d| && forall i :: 0 <= i < |r| ==> r[i] == env.format(d[i], false, None, i)
  {
    var d := DedupLoop(articles, env.validate, 0, {}, []);
    seq(|d|, i requires 0 <= i < |d| => env.format(d[i], false, None, i))
  }

  // ---------------------------------------------------------------------
  // Lemmas

  lemma FilterStep<T>(p: T -> bool, xs: seq<T>, i: nat)
    requires i < |xs|
    ensures Filter(p, xs[..i + 1]) == Filter(p, xs[..i]) + (if p(xs[i]) then [xs[i]] else [])
  {
    assert xs[..i + 1] == xs[..i] + [xs[i]];
    FilterAppend(p, xs[..i], [xs[i]]);
  }

  /** General mode: the selected articles are valid, pairwise distinct by
      key, in provider order, each the first valid article of its key, at
      most six; and when fewer than six are kept, every valid article's key
      is among them. */
  lemma GeneralNewsSelection(articles: seq<RawNewsArticle>, validate: RawNewsArticle -> bool)
    ensures var d := Take(FirstByKey(Filter(validate, articles), DedupKey), MaxArticles);
      && |d| <= MaxArticles
      && (forall i :: 0 <= i < |d| ==> validate(d[i]))
      && (forall i, j :: 0 <= i < j < |d| ==> DedupKey(d[i]) != DedupKey(d[j]))
      && Subsequence(d, articles)
      && (forall i :: 0 <= i < |d| ==> FirstWithKey(Filter(validate, articles), DedupKey, DedupKey(d[i])) == Some(d[i]))
      && (|d| < MaxArticles ==>
            forall j :: 0 <= j < |articles| && validate(articles[j]) ==> DedupKey(articles[j]) in KeySet(d, DedupKey))
  {
    SelectionFacts(articles, validate, DedupKey);
  }

  /** `GeneralNewsSelection` for any key function. */
  lemma {:induction false} SelectionFacts<K>(articles: seq<RawNewsArticle>, validate: RawNewsArticle -> bool, key: RawNewsArticle -> K)
    ensures var d := Take(FirstByKey(Filter(validate, articles), key), MaxArticles);
      && |d| <= MaxArticles
      && (forall i :: 0 <= i < |d| ==> validate(d[i]))
      && (forall i, j :: 0 <= i < j < |d| ==> key(d[i]) != key(d[j]))
      && Subsequence(d, articles)
      && (forall i :: 0 <= i < |d| ==> FirstWithKey(Filter(validate, articles), key, key(d[i])) == Some(d[i]))
      && (|d| < MaxArticles ==>
            forall j :: 0 <= j < |articles| && validate(articles[j]) ==> key(articles[j]) in KeySet(d, key))
  {
    var v := Filter(validate, articles);
    var f := FirstByKey(v, key);
    var d := Take(f, MaxArticles);
    FilterKeeps(validate, articles);
    FirstByKeyDistinct(v, key);
    FirstByKeyFirst(v, key);
    FirstByKeySubsequence(v, key);
    KeySetFirstByKey(v, key);
    SubsequencePrefix(d, f);
    SubsequenceTrans(d, f, v);
    SubsequenceTrans(d, v, articles);
    forall i | 0 <= i < |d| ensures validate(d[i]) {
      SubsequenceMember(d, v, i);
    }
    if |d| < MaxArticles {
      assert d == f;
      forall j | 0 <= j < |articles| && validate(articles[j]) ensures key(articles[j]) in KeySet(d, key) {
        assert articles[j] in v;
        var k :| 0 <= k < |v| && v[k] == articles[j];
        assert key(v[k]) in KeySet(v, key);
      }
    }
  }

  /** Articles with the same id, url and headline share a key, so no two
      kept articles share that triple. */
  lemma SameTripleSameKey(a: RawNewsArticle, b: RawNewsArticle)
    requires a.id == b.id && a.url == b.url && a.headline == b.headline
    ensures DedupKey(a) == DedupKey(b)
  {
  }

  /** The key is a plain concatenation, so different triples can collide:
      an article with url "a-b" and headline "c" and one with url "a" and
      headline "b-c" (same id) share the key "1-a-b-c", and only the first
      is kept. */
  lemma KeyCollision()
    ensures var a := RawNewsArticle(1, Some("c"), None, None, Some("a-b"), None, None, None, None);
      var b := RawNewsArticle(1, Some("b-c"), None, None, Some("a"), None, None, None, None);
      && a.url != b.url
      && DedupKey(a) == DedupKey(b) == "1-a-b-c"
      && FirstByKey([a, b], DedupKey) == [a]
  {
    var a := RawNewsArticle(1, Some("c"), None, None, Some("a-b"), None, None, None, None);
    var b := RawNewsArticle(1, Some("b-c"), None, None, Some("a"), None, None, None, None);
    assert Text.IntToString(1) == "1";
    assert DedupKey(a) == "1-a-b-c";
    assert DedupKey(b) == "1-a-b-c";
    assert [a, b][..1] == [a];
    assert [a][..0] == [];
    assert FirstByKey([a], DedupKey) == [a];
    assert DedupKey(b) in KeySet([a], DedupKey) by {
      assert [a][0] == a;
    }
  }
}

=== FILE: middleware.dfy ===
/** The authentication gate of middleware/index.ts: pages other than the
    sign-in, sign-up and onboarding pages need a session cookie, and every
    request that passes through is tagged with its pathname and URL. */
module Middleware {
  import opened Wrappers
  import Text

  /** What the middleware reads of a request. `origin` is the scheme, host
      and port of `url`; `sessionCookie` is what `getSessionCookie` finds
      (`null` when there is no cookie). */
  datatype Request = Request(pathname: string, url: string, origin: string, sessionCookie: Option<string>)

  /** `NextResponse.next()` with the headers it carries, or a redirect. */
  datatype Response = Next(headers: map<string, string>) | Redirect(location: string)

  const SignIn: string := "/sign-in"
  const SignUp: string := "/sign-up"
  const Onboarding: string := "/onboarding"
  const PathnameHeader: string := "x-pathname"
  const UrlHeader: string := "x-url"

  /** The pages a visitor without a session may see. */
  const AuthPages: set<string> := {SignIn, SignUp, Onboarding}

  /** The authentication pages, matched by a plain prefix test: a path is
      exempt when some prefix of it is one of the pages. */
  predicate IsExempt(pathname: string)
    ensures IsExempt(pathname) <==> exists k :: 0 <= k <= |pathname| && pathname[..k] in AuthPages
  {
    ExemptPrefix(pathname);
    Text.StartsWith(pathname, SignIn) || Text.StartsWith(pathname, SignUp) || Text.StartsWith(pathname, Onboarding)
  }

  lemma ExemptPrefix(pathname: string)
    ensures (Text.StartsWith(pathname, SignIn) || Text.StartsWith(pathname, SignUp) || Text.StartsWith(pathname, Onboarding))
      <==> exists k :: 0 <= k <= |pathname| && pathname[..k] in AuthPages
  {
    if exists k :: 0 <= k <= |pathname| && pathname[..k] in AuthPages {
      var k :| 0 <= k <= |pathname| && pathname[..k] in AuthPages;
      assert |pathname[..k]| == k;
    }
  }

  /** `!sessionCookie` is false: the cookie is neither `null` nor the empty
      string, the two falsy values it can take. */
  predicate HasSession(r: Request)
    ensures HasSession(r) <==> r.sessionCookie !in {None, Some("")}
  {
    r.sessionCookie.Some? && r.sessionCookie.value != ""
  }

  /** `new URL('/sign-in', request.url)`: the absolute path replaces the
      path, query and fragment of the request URL. */
  function SignInUrl(r: Request): (u: string)
    ensures Text.StartsWith(u, r.origin) && u[|r.origin|..] == SignIn
    ensures IsExempt(u[|r.origin|..])
  {
    assert (r.origin + SignIn)[|r.origin|..] == SignIn;
    ExemptPrefix(SignIn);
    assert Text.StartsWith(SignIn, SignIn);
    r.origin + SignIn
  }

  /** `middleware(request)`. */
  function Middleware(r: Request): (res: Response)
    ensures res.Next? <==> IsExempt(r.pathname) || HasSession(r)
    ensures res.Next? ==> res.headers.Keys == {PathnameHeader, UrlHeader}
    ensures res.Next? ==> res.headers[PathnameHeader] == r.pathname && res.headers[UrlHeader] == r.url
    ensures res.Redirect? ==> res.location == r.origin + "/sign-in"
  {
    var response := Next(map[PathnameHeader := r.pathname, UrlHeader := r.url]);
    if IsExempt(r.pathname) then response
    else if !HasSession(r) then Redirect(SignInUrl(r))
    else response
  }

  /** The exempt pages pass through whatever the cookie says. */
  lemma ExemptIgnoresCookie(r: Request, cookie: Option<string>)
    requires IsExempt(r.pathname)
    ensures Middleware(r.(sessionCookie := cookie)) == Middleware(r)
    ensures Middleware(r).Next?
  {
  }

  /** Any request with a session passes through, with the same headers as
      an exempt page would get. */
  lemma SessionPasses(r: Request)
    requires HasSession(r)
    ensures Middleware(r) == Next(map[PathnameHeader := r.pathname, UrlHeader := r.url])
  {
  }

  /** No redirect loop: the request that follows a redirect asks for the
      path of the redirect's location, and it passes through with or
      without a cookie. */
  lemma NoRedirectLoop(r: Request, cookie: Option<string>)
    requires Middleware(r).Redirect?
    ensures var location := Middleware(r).location;
      && Text.StartsWith(location, r.origin)
      && var follow := Request(location[|r.origin|..], location, r.origin, cookie);
      Middleware(follow).Next?
  {
    assert Middleware(r).location == SignInUrl(r);
  }

  /** The prefix test also exempts longer paths, related or not. */
  lemma PrefixExamples()
    ensures IsExempt("/onboarding/step2")
    ensures IsExempt("/sign-inx")
    ensures IsExempt("/sign-up")
    ensures !IsExempt("/")
    ensures !IsExempt("/watchlist")
  {
    assert "/onboarding/step2"[..|Onboarding|] == Onboarding;
    assert "/sign-inx"[..|SignIn|] == SignIn;
    assert "/sign-up"[..|SignUp|] == SignUp;
    assert "/watchlist"[1] != SignIn[1];
  }
}

=== FILE: news.dfy ===
/** `getNews`: symbol normalisation, the choice between company news and
    general news, and the single catch that turns any escaping error into
    "Failed to fetch news" (lib/actions/finnhub.actions.ts). */
module News {
  import opened Wrappers
  import opened Articles
  import opened Seqs
  import Text
  import SymbolNews
  import GeneralNews

  /** The message of the error `getNews` throws when the date window or
      the general-news request fails. */
  const FailedToFetchNews: string := "Failed to fetch news"

  /** A cleaned symbol: not empty, no surrounding whitespace, no lower-case
      ASCII letter. */
  predicate IsCleanSymbol(s: string) {
    && s != []
    && !Text.IsWhitespace(s[0]) && !Text.IsWhitespace(s[|s| - 1])
    && forall i :: 0 <= i < |s| ==> !Text.IsLowerAscii(s[i])
  }

  /** `s.trim().toUpperCase()`. */
  function CleanSymbol(s: string): (r: string)
    ensures r == [] <==> Text.IsBlank(s)
    ensures r != [] ==> IsCleanSymbol(r)
  {
    Text.ToUpper(Text.Trim(s))
  }

  /** The cleaned symbol is the part of `s` between its leading and
      trailing whitespace, letter for letter upper-cased. */
  lemma {:induction false} CleanSymbolCore(s: string)
    ensures IsUpperCoreAt(s, Text.LeadingBlanks(s), CleanSymbol(s))
  {
    Text.TrimCore(s);
    CleanSymbolChars(s);
  }

  lemma {:induction false} CleanSymbolChars(s: string)
    ensures forall i :: 0 <= i < |CleanSymbol(s)| ==> CleanSymbol(s)[i] == Text.UpperChar(s[Text.LeadingBlanks(s) + i])
  {
    Text.TrimChars(s);
    var t := Text.Trim(s);
    var k := Text.LeadingBlanks(s);
    forall i | 0 <= i < |t| ensures Text.ToUpper(t)[i] == Text.UpperChar(s[k + i]) {
      assert Text.ToUpper(t)[i] == Text.UpperChar(t[i]);
      assert t[i] == s[k + i];
    }
  }

  /** `r` is the stretch of `s` at offset `k`, with its ASCII letters
      upper-cased, and only whitespace of `s` lies outside that stretch. */
  ghost predicate IsUpperCoreAt(s: string, k: nat, r: string) {
    && k + |r| <= |s|
    && (forall i :: 0 <= i < |r| ==> r[i] == Text.UpperChar(s[k + i]))
    && (forall i :: 0 <= i < k ==> Text.IsWhitespace(s[i]))
    && (forall i :: k + |r| <= i < |s| ==> Text.IsWhitespace(s[i]))
  }

  predicate NonEmpty(s: string) {
    s != []
  }

  predicate NotBlank(s: string) {
    !Text.IsBlank(s)
  }

  /** `symbols.map(s => s.trim().toUpperCase()).filter(Boolean)`, one
      symbol at a time. */
  function CleanSymbols(symbols: seq<string>): (r: seq<string>)
    ensures |r| <= |symbols|
    ensures forall i :: 0 <= i < |r| ==> IsCleanSymbol(r[i])
    decreases |symbols|
  {
    if symbols == [] then []
    else
      var c := CleanSymbol(symbols[0]);
      var rest := CleanSymbols(symbols[1..]);
      if c == [] then rest else Seqs.AllCons(IsCleanSymbol, c, rest); [c] + rest
  }

  /** Cleaning leaves nothing exactly when every symbol is blank. */
  lemma {:induction false} CleanSymbolsEmpty(symbols: seq<string>)
    ensures CleanSymbols(symbols) == [] <==> forall i :: 0 <= i < |symbols| ==> Text.IsBlank(symbols[i])
    decreases |symbols|
  {
    if symbols != [] {
      CleanSymbolsEmpty(symbols[1..]);
      assert forall i :: 1 <= i < |symbols| ==> symbols[i] == symbols[1..][i - 1];
    }
  }

  /** The general-news path is taken when no symbols are given, or when
      every given symbol is blank (this includes the empty list). */
  predicate UsesGeneralNews(symbols: Option<seq<string>>) {
    symbols.None? || forall i :: 0 <= i < |symbols.value| ==> Text.IsBlank(symbols.value[i])
  }

  /** `fetchGeneralNews` inside `getNews`'s `try`: its request failing is
      fatal to the call. */
  function GeneralPath(env: Env): (r: Result<seq<MarketNewsArticle>, string>)
    ensures r.Failure? <==> env.generalNews.Failure?
  {
    match env.generalNews
    case Failure(_) => Failure(FailedToFetchNews)
    case Success(articles) => Success(GeneralNews.FetchGeneralNews(articles, env))
  }

  /** `getNews(symbols?)`. */
  function GetNews(symbols: Option<seq<string>>, env: Env): (r: Result<seq<MarketNewsArticle>, string>)
    ensures r.Failure? <==> env.dateRange.Failure? || (UsesGeneralNews(symbols) && env.generalNews.Failure?)
    ensures r.Failure? ==> r.error == FailedToFetchNews
    ensures r.Success? ==> |r.value| <= MaxArticles
    ensures r.Success? && UsesGeneralNews(symbols) ==>
      r.value == GeneralNews.FetchGeneralNews(env.generalNews.value, env)
    ensures r.Success? && !UsesGeneralNews(symbols) ==>
      var cleaned := CleanSymbols(symbols.value);
      cleaned != [] && r.value == SymbolNews.FetchSymbolNews(cleaned, env.dateRange.value, env)
  {
    match env.dateRange
    case Failure(_) => Failure(FailedToFetchNews)
    case Success(window) =>
      if symbols.Some? && |symbols.value| > 0 then
        var cleaned := CleanSymbols(symbols.value);
        CleanSymbolsEmpty(symbols.value);
        if |cleaned| == 0 then GeneralPath(env)
        else Success(SymbolNews.FetchSymbolNews(cleaned, window, env))
      else GeneralPath(env)
  }

  // ---------------------------------------------------------------------
  // Lemmas

  /** The recursive cleaning is `getNews`'s map-then-filter pipeline. */
  lemma {:induction false} CleanSymbolsIsMapThenFilter(symbols: seq<string>)
    ensures CleanSymbols(symbols) == Filter(NonEmpty, Map(CleanSymbol, symbols))
    decreases |symbols|
  {
    if symbols != [] {
      CleanSymbolsIsMapThenFilter(symbols[1..]);
      assert Map(CleanSymbol, symbols)[1..] == Map(CleanSymbol, symbols[1..]);
    }
  }

  /** Equivalently, cleaning drops the blank symbols first and then cleans
      each of the rest. */
  lemma CleanSymbolsDropsBlanks(symbols: seq<string>)
    ensures CleanSymbols(symbols) == Map(CleanSymbol, Filter(NotBlank, symbols))
  {
    CleanSymbolsIsMapThenFilter(symbols);
    FilterMapSwap(CleanSymbol, NonEmpty, NotBlank, symbols);
  }

  /** A cleaned symbol is its own cleaning. */
  lemma CleanSymbolFixpoint(s: string)
    requires IsCleanSymbol(s)
    ensures CleanSymbol(s) == s
  {
    Text.TrimTrimmed(s);
  }

  /** Cleaning is idempotent. */
  lemma CleanSymbolsIdempotent(symbols: seq<string>)
    ensures CleanSymbols(CleanSymbols(symbols)) == CleanSymbols(symbols)
  {
    CleanFixpoint(CleanSymbols(symbols));
  }

  /** A list of clean symbols is its own cleaning. */
  lemma {:induction false} CleanFixpoint(r: seq<string>)
    requires forall i :: 0 <= i < |r| ==> IsCleanSymbol(r[i])
    ensures CleanSymbols(r) == r
    decreases |r|
  {
    if r != [] {
      var h, t := r[0], r[1..];
      assert r == [h] + t;
      assert forall i :: 0 <= i < |t| ==> t[i] == r[i + 1];
      CleanFixpoint(t);
      CleanSymbolFixpoint(h);
      CleanSymbolsKeep(r);
    }
  }

  lemma CleanSymbolsKeep(r: seq<string>)
    requires r != [] && r[0] != [] && CleanSymbol(r[0]) == r[0]
    ensures CleanSymbols(r) == [r[0]] + CleanSymbols(r[1..])
  {
  }

  /** Lower-case symbols and blank entries: `["aapl", " "]` cleans to
      `["AAPL"]`, so the call takes the company-news path for AAPL. */
  lemma CleanExample()
    ensures CleanSymbols(["aapl", " "]) == ["AAPL"]
    ensures !UsesGeneralNews(Some(["aapl", " "]))
  {
    CleanLowerCase();
    CleanBlank();
    assert ["aapl", " "][1..] == [" "];
    assert [" "][1..] == [];
    assert !Text.IsBlank("aapl") by {
      assert !Text.IsWhitespace("aapl"[0]);
    }
  }

  lemma CleanLowerCase()
    ensures CleanSymbol("aapl") == "AAPL"
  {
    Text.TrimTrimmed("aapl");
    var u := Text.ToUpper("aapl");
    assert u[0] == Text.UpperChar('a') == 'A';
    assert u[1] == Text.UpperChar('a') == 'A';
    assert u[2] == Text.UpperChar('p') == 'P';
    assert u[3] == Text.UpperChar('l') == 'L';
    assert u == "AAPL";
  }

  lemma CleanBlank()
    ensures CleanSymbol(" ") == ""
  {
    assert Text.IsBlank(" ");
  }
}

=== FILE: seqs.dfy ===
/** Sequence helpers shared by the news and stock models: filtering,
    the subsequence relation and taking a bounded prefix. */
module Seqs {

  /** `a` can be obtained from `b` by deleting elements: order is kept. */
  ghost predicate Subsequence<T>(a: seq<T>, b: seq<T>)
    decreases |b|
  {
    if a == [] then true
    else if b == [] then false
    else (a[0] == b[0] && Subsequence(a[1..], b[1..])) || Subsequence(a, b[1..])
  }

  lemma {:induction false} SubsequenceRefl<T>(a: seq<T>)
    ensures Subsequence(a, a)
    decreases |a|
  {
    if a != [] {
      SubsequenceRefl(a[1..]);
    }
  }

  /** Array.prototype.filter: the elements satisfying `p`, in order. */
  function Filter<T>(p: T -> bool, xs: seq<T>): (r: seq<T>)
    ensures |r| <= |xs|
    ensures forall i :: 0 <= i < |r| ==> p(r[i])
    decreases |xs|
  {
    if xs == [] then []
    else if p(xs[0]) then [xs[0]] + Filter(p, xs[1..])
    else Filter(p, xs[1..])
  }

  /** Filtering keeps every element that satisfies the predicate, in order. */
  lemma {:induction false} FilterKeeps<T>(p: T -> bool, xs: seq<T>)
    ensures forall i :: 0 <= i < |xs| && p(xs[i]) ==> xs[i] in Filter(p, xs)
    ensures Subsequence(Filter(p, xs), xs)
    decreases |xs|
  {
    if xs != [] {
      FilterKeeps(p, xs[1..]);
      forall i | 1 <= i < |xs| && p(xs[i]) ensures xs[i] in Filter(p, xs) {
        assert xs[1..][i - 1] == xs[i];
      }
      if !p(xs[0]) {
        SubsequenceDrop(Filter(p, xs[1..]), xs);
      }
    }
  }

  /** Filtering keeps every copy of a satisfying element and no copy of
      any other. */
  lemma {:induction false} FilterCount<T>(p: T -> bool, xs: seq<T>)
    ensures forall x :: multiset(Filter(p, xs))[x] == if p(x) then multiset(xs)[x] else 0
    decreases |xs|
  {
    if xs != [] {
      FilterCount(p, xs[1..]);
      assert xs == [xs[0]] + xs[1..];
    }
  }

  lemma SubsequenceDrop<T>(a: seq<T>, b: seq<T>)
    requires b != [] && Subsequence(a, b[1..])
    ensures Subsequence(a, b)
  {
  }

  /** Filtering distributes over concatenation. */
  lemma {:induction false} FilterAppend<T>(p: T -> bool, xs: seq<T>, ys: seq<T>)
    ensures Filter(p, xs + ys) == Filter(p, xs) + Filter(p, ys)
    decreases |xs|
  {
    if xs == [] {
      assert xs + ys == ys;
    } else {
      assert (xs + ys)[1..] == xs[1..] + ys;
      FilterAppend(p, xs[1..], ys);
    }
  }

  /** Filtering an already filtered sequence changes nothing. */
  lemma {:induction false} FilterIdempotent<T>(p: T -> bool, xs: seq<T>)
    ensures Filter(p, Filter(p, xs)) == Filter(p, xs)
    decreases |xs|
  {
    if xs != [] {
      FilterIdempotent(p, xs[1..]);
    }
  }

  /** The first `n` elements, or all of them when there are fewer. */
  function Take<T>(xs: seq<T>, n: nat): (r: seq<T>)
    ensures |r| == if |xs| <= n then |xs| else n
    ensures r <= xs
  {
    if |xs| <= n then xs else xs[..n]
  }

  lemma {:induction false} SubsequenceSnoc<T>(a: seq<T>, b: seq<T>, x: T, keep: bool)
    requires Subsequence(a, b)
    ensures Subsequence(a + (if keep then [x] else []), b + [x])
    decreases |b|
  {
    if a == [] {
      if keep {
        assert a + [x] == [x];
        SubsequenceSingleton(b, x);
      }
    } else if b == [] {
    } else {
      assert (b + [x])[1..] == b[1..] + [x];
      if a[0] == b[0] && Subsequence(a[1..], b[1..]) {
        SubsequenceSnoc(a[1..], b[1..], x, keep);
        assert (a + (if keep then [x] else []))[1..] == a[1..] + (if keep then [x] else []);
      } else {
        SubsequenceSnoc(a, b[1..], x, keep);
      }
    }
  }

  lemma {:induction false} SubsequenceSingleton<T>(b: seq<T>, x: T)
    ensures Subsequence([x], b + [x])
    decreases |b|
  {
    if b != [] {
      assert (b + [x])[1..] == b[1..] + [x];
      SubsequenceSingleton(b[1..], x);
    } else {
      assert [x][1..] == [];
    }
  }

  lemma {:induction false} SubsequencePrefix<T>(a: seq<T>, b: seq<T>)
    requires a <= b
    ensures Subsequence(a, b)
    decreases |a|
  {
    if a != [] {
      SubsequencePrefix(a[1..], b[1..]);
    }
  }

  lemma {:induction false} SubsequenceTrans<T>(a: seq<T>, b: seq<T>, c: seq<T>)
    requires Subsequence(a, b) && Subsequence(b, c)
    ensures Subsequence(a, c)
    decreases |c|
  {
    if a != [] && c != [] {
      if b[0] == c[0] && Subsequence(b[1..], c[1..]) {
        if a[0] == b[0] && Subsequence(a[1..], b[1..]) {
          SubsequenceTrans(a[1..], b[1..], c[1..]);
        } else {
          SubsequenceTrans(a, b[1..], c[1..]);
        }
      } else {
        SubsequenceTrans(a, b, c[1..]);
      }
    }
  }

  lemma {:induction false} SubsequenceMember<T>(a: seq<T>, b: seq<T>, i: nat)
    requires Subsequence(a, b) && i < |a|
    ensures a[i] in b
    decreases |b|
  {
    if a[0] == b[0] && Subsequence(a[1..], b[1..]) {
      if i > 0 {
        SubsequenceMember(a[1..], b[1..], i - 1);
      }
    } else {
      SubsequenceMember(a, b[1..], i);
    }
  }


  /** Array.prototype.map. */
  function Map<T, U>(f: T -> U, xs: seq<T>): (r: seq<U>)
    ensures |r| == |xs|
    ensures forall i :: 0 <= i < |xs| ==> r[i] == f(xs[i])
  {
    seq(|xs|, i requires 0 <= i < |xs| => f(xs[i]))
  }

  lemma MapCons<T, U>(f: T -> U, x: T, xs: seq<T>)
    ensures Map(f, [x] + xs) == [f(x)] + Map(f, xs)
  {
    assert forall i :: 1 <= i < |xs| + 1 ==> ([x] + xs)[i] == xs[i - 1];
  }

  /** Filtering the images equals mapping the filtered inputs when the two
      predicates agree through `f`. */
  lemma {:induction false} FilterMapSwap<T, U>(f: T -> U, keep: U -> bool, pre: T -> bool, xs: seq<T>)
    requires forall x :: keep(f(x)) == pre(x)
    ensures Filter(keep, Map(f, xs)) == Map(f, Filter(pre, xs))
    decreases |xs|
  {
    if xs != [] {
      FilterMapSwap(f, keep, pre, xs[1..]);
      assert Map(f, xs)[1..] == Map(f, xs[1..]);
      if pre(xs[0]) {
        MapCons(f, xs[0], Filter(pre, xs[1..]));
      }
    }
  }

  lemma AllCons<T>(p: T -> bool, x: T, xs: seq<T>)
    requires p(x) && forall i :: 0 <= i < |xs| ==> p(xs[i])
    ensures forall i :: 0 <= i < |xs| + 1 ==> p(([x] + xs)[i])
  {
  }

  /** Filtering with predicates that agree on every element gives the same
      result. */
  lemma {:induction false} FilterCongruent<T>(p: T -> bool, q: T -> bool, xs: seq<T>)
    requires forall i :: 0 <= i < |xs| ==> p(xs[i]) == q(xs[i])
    ensures Filter(p, xs) == Filter(q, xs)
    decreases |xs|
  {
    if xs != [] {
      FilterCongruent(p, q, xs[1..]);
    }
  }

  /** Filtering keeps everything when every element satisfies the predicate. */
  lemma {:induction false} FilterAll<T>(p: T -> bool, xs: seq<T>)
    requires forall i :: 0 <= i < |xs| ==> p(xs[i])
    ensures Filter(p, xs) == xs
    decreases |xs|
  {
    if xs != [] {
      FilterAll(p, xs[1..]);
    }
  }

  /** Filtering a sequence filters each side of any split point. */
  lemma {:induction false} FilterSplit<T>(p: T -> bool, xs: seq<T>, i: nat)
    requires i <= |xs|
    ensures Filter(p, xs) == Filter(p, xs[..i]) + Filter(p, xs[i..])
    decreases i
  {
    if i > 0 {
      FilterSplit(p, xs[1..], i - 1);
      assert xs[1..][..i - 1] == xs[..i][1..];
      assert xs[1..][i - 1..] == xs[i..];
    }
  }
}

=== FILE: stable_sort.dfy ===
/** `Array.prototype.sort` with a comparator, as ECMA-262 (section 23.1.3.30)
    requires it since ES2019: the result is ordered by the comparator and the
    sort is stable, so elements that compare equal keep their relative order.
    The comparator follows the JavaScript convention: a negative result puts
    `a` first, a positive one puts `b` first, zero means "tie". */
module StableSort {

  /** A consistent comparator: the sign flips when the arguments are swapped,
      and "a is not after b" is transitive. Ties are then an equivalence. */
  ghost predicate IsConsistent<T(!new)>(cmp: (T, T) -> int) {
    && (forall a, b :: cmp(a, b) < 0 <==> cmp(b, a) > 0)
    && (forall a, b, c :: cmp(a, b) <= 0 && cmp(b, c) <= 0 ==> cmp(a, c) <= 0)
  }

  /** No element is placed after one the comparator wants after it. */
  ghost predicate Sorted<T>(s: seq<T>, cmp: (T, T) -> int) {
    forall i, j :: 0 <= i < j < |s| ==> cmp(s[i], s[j]) <= 0
  }

  /** The elements of `s` that tie with `z`, in their order in `s`. A sort is
      stable exactly when it leaves every such sequence unchanged. */
  function Ties<T>(s: seq<T>, z: T, cmp: (T, T) -> int): seq<T>
    decreases |s|
  {
    if s == [] then []
    else (if cmp(s[0], z) == 0 then [s[0]] else []) + Ties(s[1..], z, cmp)
  }

  /** Places `x` before the first element of `ys` that is not before it. */
  function Insert<T(!new)>(x: T, ys: seq<T>, cmp: (T, T) -> int): (r: seq<T>)
    requires IsConsistent(cmp)
    ensures multiset(r) == multiset(ys) + multiset{x}
    ensures forall z :: Ties(r, z, cmp) == (if cmp(x, z) == 0 then [x] else []) + Ties(ys, z, cmp)
    decreases |ys|
  {
    if ys == [] || cmp(x, ys[0]) <= 0 then
      TiesCons(x, ys, cmp);
      [x] + ys
    else
      var rest := Insert(x, ys[1..], cmp);
      NoCommonTie(x, ys[0], cmp);
      TiesSwap(x, ys, rest, cmp);
      MultisetSwap(x, ys, rest);
      [ys[0]] + rest
  }

  lemma MultisetSwap<T>(x: T, ys: seq<T>, rest: seq<T>)
    requires ys != [] && multiset(rest) == multiset(ys[1..]) + multiset{x}
    ensures multiset([ys[0]] + rest) == multiset(ys) + multiset{x}
  {
    assert ys == [ys[0]] + ys[1..];
  }

  lemma TiesCons<T>(x: T, ys: seq<T>, cmp: (T, T) -> int)
    ensures forall z :: Ties([x] + ys, z, cmp) == (if cmp(x, z) == 0 then [x] else []) + Ties(ys, z, cmp)
  {
    assert ([x] + ys)[1..] == ys;
  }

  /** Inserting into a sorted sequence keeps it sorted. */
  lemma {:induction false} InsertSorted<T(!new)>(x: T, ys: seq<T>, cmp: (T, T) -> int)
    requires IsConsistent(cmp)
    requires Sorted(ys, cmp)
    ensures Sorted(Insert(x, ys, cmp), cmp)
    decreases |ys|
  {
    if ys == [] || cmp(x, ys[0]) <= 0 {
      InsertLeads(x, ys, cmp);
      if ys != [] {
        LeadsSorted(x, ys, cmp);
      }
    } else {
      var tail := ys[1..];
      var rest := Insert(x, tail, cmp);
      InsertBehind(x, ys, cmp);
      TailSorted(ys, cmp);
      InsertSorted(x, tail, cmp);
      assert ys == [ys[0]] + tail;
      HeadBeforeAll(ys[0], x, tail, rest, cmp);
    }
  }

  lemma InsertBehind<T(!new)>(x: T, ys: seq<T>, cmp: (T, T) -> int)
    requires IsConsistent(cmp)
    requires ys != [] && cmp(x, ys[0]) > 0
    ensures Insert(x, ys, cmp) == [ys[0]] + Insert(x, ys[1..], cmp)
  {
  }

  lemma TailSorted<T>(ys: seq<T>, cmp: (T, T) -> int)
    requires ys != [] && Sorted(ys, cmp)
    ensures Sorted(ys[1..], cmp)
  {
    forall i, j | 0 <= i < j < |ys| - 1 ensures cmp(ys[1..][i], ys[1..][j]) <= 0 {
      assert ys[1..][i] == ys[i + 1] && ys[1..][j] == ys[j + 1];
    }
  }

  /** `x` may head a sorted `ys` when it is not after `ys[0]`. */
  lemma LeadsSorted<T(!new)>(x: T, ys: seq<T>, cmp: (T, T) -> int)
    requires IsConsistent(cmp)
    requires ys != [] && cmp(x, ys[0]) <= 0 && Sorted(ys, cmp)
    ensures Sorted([x] + ys, cmp)
  {
    var r := [x] + ys;
    forall i, j | 0 <= i < j < |r| ensures cmp(r[i], r[j]) <= 0 {
      if i == 0 && j > 1 {
        assert cmp(ys[0], ys[j - 1]) <= 0;
      }
    }
  }

  /** `h` may head the sorted `rest` when it is not after `x` nor after any
      element of `tail`, and `rest` holds exactly those. */
  lemma HeadBeforeAll<T(!new)>(h: T, x: T, tail: seq<T>, rest: seq<T>, cmp: (T, T) -> int)
    requires IsConsistent(cmp)
    requires cmp(x, h) > 0
    requires multiset(rest) == multiset(tail) + multiset{x}
    requires Sorted([h] + tail, cmp) && Sorted(rest, cmp)
    ensures Sorted([h] + rest, cmp)
  {
    var ys := [h] + tail;
    forall j | 0 <= j < |rest| ensures cmp(h, rest[j]) <= 0 {
      assert rest[j] in multiset(rest);
      if rest[j] == x {
        assert cmp(h, x) < 0;
      } else {
        assert rest[j] in multiset(tail);
        var k :| 0 <= k < |tail| && tail[k] == rest[j];
        assert ys[0] == h && ys[k + 1] == tail[k];
      }
    }
    var r := [h] + rest;
    forall i, j | 0 <= i < j < |r| ensures cmp(r[i], r[j]) <= 0 {
      if i == 0 {
        assert r[j] == rest[j - 1];
      } else {
        assert r[i] == rest[i - 1] && r[j] == rest[j - 1];
      }
    }
  }

  /** Moving `x` behind `ys[0]` keeps every tie class in order, because the
      two never tie with the same element. */
  lemma TiesSwap<T>(x: T, ys: seq<T>, rest: seq<T>, cmp: (T, T) -> int)
    requires ys != [] && forall z :: !(cmp(x, z) == 0 && cmp(ys[0], z) == 0)
    requires forall z :: Ties(rest, z, cmp) == (if cmp(x, z) == 0 then [x] else []) + Ties(ys[1..], z, cmp)
    ensures forall z :: Ties([ys[0]] + rest, z, cmp) == (if cmp(x, z) == 0 then [x] else []) + Ties(ys, z, cmp)
  {
    forall z
      ensures Ties([ys[0]] + rest, z, cmp) == (if cmp(x, z) == 0 then [x] else []) + Ties(ys, z, cmp)
    {
      TiesSwapAt(x, ys, rest, z, cmp);
    }
  }

  lemma TiesSwapAt<T>(x: T, ys: seq<T>, rest: seq<T>, z: T, cmp: (T, T) -> int)
    requires ys != [] && !(cmp(x, z) == 0 && cmp(ys[0], z) == 0)
    requires Ties(rest, z, cmp) == (if cmp(x, z) == 0 then [x] else []) + Ties(ys[1..], z, cmp)
    ensures Ties([ys[0]] + rest, z, cmp) == (if cmp(x, z) == 0 then [x] else []) + Ties(ys, z, cmp)
  {
    var y := ys[0];
    assert ([y] + rest)[1..] == rest;
    assert Ties([y] + rest, z, cmp) == (if cmp(y, z) == 0 then [y] else []) + Ties(rest, z, cmp);
    assert Ties(ys, z, cmp) == (if cmp(y, z) == 0 then [y] else []) + Ties(ys[1..], z, cmp);
  }

  /** Elements the comparator separates never tie with the same element. */
  lemma NoCommonTie<T(!new)>(x: T, y: T, cmp: (T, T) -> int)
    requires IsConsistent(cmp)
    requires cmp(x, y) > 0
    ensures forall z :: !(cmp(x, z) == 0 && cmp(y, z) == 0)
  {
  }

  /** Stable insertion sort: the reference for the engine's stable sort. */
  function Sort<T(!new)>(xs: seq<T>, cmp: (T, T) -> int): (r: seq<T>)
    requires IsConsistent(cmp)
    ensures multiset(r) == multiset(xs)
    ensures Sorted(r, cmp)
    ensures forall z :: Ties(r, z, cmp) == Ties(xs, z, cmp)
    decreases |xs|
  {
    if xs == [] then []
    else
      assert xs == [xs[0]] + xs[1..];
      InsertSorted(xs[0], Sort(xs[1..], cmp), cmp);
      Insert(xs[0], Sort(xs[1..], cmp), cmp)
  }

  /** A sequence that is already sorted comes back unchanged. */
  lemma {:induction false} SortSorted<T(!new)>(xs: seq<T>, cmp: (T, T) -> int)
    requires IsConsistent(cmp)
    requires Sorted(xs, cmp)
    ensures Sort(xs, cmp) == xs
    decreases |xs|
  {
    if xs != [] {
      TailSorted(xs, cmp);
      SortSorted(xs[1..], cmp);
      if |xs| > 1 {
        assert cmp(xs[0], xs[1]) <= 0;
      }
      SortSortedStep(xs, cmp);
    }
  }

  lemma SortSortedStep<T(!new)>(xs: seq<T>, cmp: (T, T) -> int)
    requires IsConsistent(cmp)
    requires xs != [] && Sort(xs[1..], cmp) == xs[1..]
    requires |xs| > 1 ==> cmp(xs[0], xs[1]) <= 0
    ensures Sort(xs, cmp) == xs
  {
    var h, t := xs[0], xs[1..];
    assert xs == [h] + t;
    calc {
      Sort(xs, cmp);
      { SortCons(xs, cmp); }
      Insert(h, Sort(t, cmp), cmp);
      Insert(h, t, cmp);
      { InsertLeads(h, t, cmp); }
      [h] + t;
    }
  }

  lemma SortCons<T(!new)>(xs: seq<T>, cmp: (T, T) -> int)
    requires IsConsistent(cmp)
    requires xs != []
    ensures Sort(xs, cmp) == Insert(xs[0], Sort(xs[1..], cmp), cmp)
  {
  }

  lemma InsertLeads<T(!new)>(x: T, ys: seq<T>, cmp: (T, T) -> int)
    requires IsConsistent(cmp)
    requires ys == [] || cmp(x, ys[0]) <= 0
    ensures Insert(x, ys, cmp) == [x] + ys
  {
  }
}

=== FILE: stock_data_parser.dfy ===
/** The watchlist metric helpers of lib/helpers/stock-data-parser.ts:
    sorting by a metric, filtering by optional bounds, the performance
    summary and the boolean performance flags. Metric values are JavaScript
    numbers, modelled as IEEE doubles without rounding: a real, NaN or an
    infinity, compared as IEEE 754 compares them. */
module StockDataParser {
  import opened Wrappers
  import opened Seqs
  import StableSort

  // ---------------------------------------------------------------------
  // Numbers

  /** A JavaScript number: finite (rounding not modelled), NaN or infinite. */
  datatype Num = Finite(value: real) | NaN | PosInf | NegInf

  /** IEEE `a < b`: false whenever either side is NaN. */
  predicate Less(a: Num, b: Num) {
    match (a, b)
    case (NaN, _) => false
    case (_, NaN) => false
    case (Finite(x), Finite(y)) => x < y
    case (NegInf, _) => !b.NegInf?
    case (_, PosInf) => !a.PosInf?
    case (_, _) => false
  }

  /** IEEE `a > b`. */
  predicate Greater(a: Num, b: Num) {
    Less(b, a)
  }

  /** IEEE `a <= b`: also false whenever either side is NaN. */
  predicate LessEq(a: Num, b: Num) {
    Less(a, b) || (a == b && !a.NaN?)
  }

  /** IEEE `a >= b`. */
  predicate GreaterEq(a: Num, b: Num) {
    LessEq(b, a)
  }

  /** JavaScript truthiness of an optional number: `undefined`, `0`, `-0`
      and `NaN` are falsy. */
  predicate Truthy(n: Option<Num>) {
    n.Some? && n.value != Finite(0.0) && !n.value.NaN?
  }

  lemma LessEqTrans(a: Num, b: Num, c: Num)
    requires LessEq(a, b) && LessEq(b, c)
    ensures LessEq(a, c)
  {
  }

  /** On non-NaN numbers IEEE order is total, so `!(a < b)` is `a >= b`. */
  lemma NotLessIsGreaterEq(a: Num, b: Num)
    requires !a.NaN? && !b.NaN?
    ensures !Less(a, b) <==> GreaterEq(a, b)
  {
  }

  // ---------------------------------------------------------------------
  // Stocks

  /** `WatchlistStockData` (types/global.d.ts). The `rawMetrics` object is
      not represented: the helpers below never look inside it. */
  datatype Stock = Stock(
    symbol: string,
    company: string,
    marketCap: Num,
    pe: Num,
    eps: Num,
    weekHigh52: Num,
    weekLow52: Num,
    beta: Num,
    grossMargin: Num,
    netMargin: Num,
    roe: Num,
    revenueGrowth: Num,
    ytdReturn: Num,
    weekReturn5Day: Num,
    weekReturn52: Num,
    priceToSales: Num,
    priceToBook: Num)

  /** `keyof WatchlistStockData`. */
  datatype StockField =
    | Symbol | Company | MarketCap | Pe | Eps | WeekHigh52 | WeekLow52 | Beta
    | GrossMargin | NetMargin | Roe | RevenueGrowth | YtdReturn | WeekReturn5Day
    | WeekReturn52 | PriceToSales | PriceToBook | RawMetrics

  /** `stock[field]` when the field holds a number; the string fields and
      the `rawMetrics` object hold none. */
  function NumericField(s: Stock, field: StockField): Option<Num> {
    match field
    case Symbol => None
    case Company => None
    case RawMetrics => None
    case MarketCap => Some(s.marketCap)
    case Pe => Some(s.pe)
    case Eps => Some(s.eps)
    case WeekHigh52 => Some(s.weekHigh52)
    case WeekLow52 => Some(s.weekLow52)
    case Beta => Some(s.beta)
    case GrossMargin => Some(s.grossMargin)
    case NetMargin => Some(s.netMargin)
    case Roe => Some(s.roe)
    case RevenueGrowth => Some(s.revenueGrowth)
    case YtdReturn => Some(s.ytdReturn)
    case WeekReturn5Day => Some(s.weekReturn5Day)
    case WeekReturn52 => Some(s.weekReturn52)
    case PriceToSales => Some(s.priceToSales)
    case PriceToBook => Some(s.priceToBook)
  }

  // ---------------------------------------------------------------------
  // sortStocksByMetric

  datatype Direction = Asc | Desc

  /** What the comparator sees of `stock[metric]`: its value when
      `Number.isFinite` accepts it, and nothing otherwise (NaN, the
      infinities, strings and objects alike). */
  datatype SortKey = FiniteKey(value: real) | NonFiniteKey

  function MetricKey(s: Stock, metric: StockField): SortKey {
    match NumericField(s, metric)
    case Some(Finite(v)) => FiniteKey(v)
    case _ => NonFiniteKey
  }

  /** The sign of a difference. For two finite doubles `b - a` may round,
      or overflow to an infinity, but its sign is always the sign of the
      exact difference, and that sign is all `Array.prototype.sort` uses. */
  function Sign(x: real): int {
    if x < 0.0 then -1 else if x > 0.0 then 1 else 0
  }

  /** The comparator passed to `sort`: two non-finite values tie, a
      non-finite value goes after a finite one, and finite values are
      ordered by the direction. */
  function CompareKeys(direction: Direction, a: SortKey, b: SortKey): (r: int)
    ensures r < 0 <==>
              a.FiniteKey? && (b.NonFiniteKey? || if direction == Desc then a.value > b.value else a.value < b.value)
    ensures r == 0 <==> a == b
  {
    if a.NonFiniteKey? && b.NonFiniteKey? then 0
    else if a.NonFiniteKey? then 1
    else if b.NonFiniteKey? then -1
    else if direction == Desc then Sign(b.value - a.value)
    else Sign(a.value - b.value)
  }

  function ByMetric(metric: StockField, direction: Direction): (Stock, Stock) -> int {
    (a: Stock, b: Stock) => CompareKeys(direction, MetricKey(a, metric), MetricKey(b, metric))
  }

  lemma CompareKeysConsistent(direction: Direction)
    ensures forall a, b :: CompareKeys(direction, a, b) < 0 <==> CompareKeys(direction, b, a) > 0
    ensures forall a, b, c :: CompareKeys(direction, a, b) <= 0 && CompareKeys(direction, b, c) <= 0 ==>
      CompareKeys(direction, a, c) <= 0
    ensures forall a, b :: CompareKeys(direction, a, b) == 0 <==> a == b
  {
  }

  lemma ByMetricConsistent(metric: StockField, direction: Direction)
    ensures StableSort.IsConsistent(ByMetric(metric, direction))
  {
    CompareKeysConsistent(direction);
  }

  /** The stocks of `s` whose metric has the key `k`, in their order in `s`. */
  function WithKey(s: seq<Stock>, metric: StockField, k: SortKey): seq<Stock>
    decreases |s|
  {
    if s == [] then []
    else (if MetricKey(s[0], metric) == k then [s[0]] else []) + WithKey(s[1..], metric, k)
  }

  /** The comparator ties two stocks exactly when their keys are equal. */
  lemma {:induction false} TiesAreWithKey(s: seq<Stock>, z: Stock, metric: StockField, direction: Direction)
    ensures StableSort.Ties(s, z, ByMetric(metric, direction)) == WithKey(s, metric, MetricKey(z, metric))
    decreases |s|
  {
    if s != [] {
      CompareKeysConsistent(direction);
      TiesAreWithKey(s[1..], z, metric, direction);
    }
  }

  lemma WithKeyPreserved(s: seq<Stock>, r: seq<Stock>, metric: StockField, direction: Direction)
    requires forall z :: StableSort.Ties(r, z, ByMetric(metric, direction)) == StableSort.Ties(s, z, ByMetric(metric, direction))
    ensures forall z :: WithKey(r, metric, MetricKey(z, metric)) == WithKey(s, metric, MetricKey(z, metric))
  {
    forall z ensures WithKey(r, metric, MetricKey(z, metric)) == WithKey(s, metric, MetricKey(z, metric)) {
      TiesAreWithKey(r, z, metric, direction);
      TiesAreWithKey(s, z, metric, direction);
    }
  }

  /** `sortStocksByMetric(stocks, metric, direction = 'desc')`: a sorted
      copy, so the argument itself is untouched. */
  function SortStocksByMetric(stocks: seq<Stock>, metric: StockField, direction: Direction := Desc): (r: seq<Stock>)
    ensures multiset(r) == multiset(stocks)
    ensures forall i, j :: 0 <= i < j < |r| && MetricKey(r[i], metric).FiniteKey? && MetricKey(r[j], metric).FiniteKey? ==>
      if direction == Desc then MetricKey(r[i], metric).value >= MetricKey(r[j], metric).value
      else MetricKey(r[i], metric).value <= MetricKey(r[j], metric).value
    ensures forall i, j :: 0 <= i < j < |r| ==> !(MetricKey(r[i], metric).NonFiniteKey? && MetricKey(r[j], metric).FiniteKey?)
    ensures forall z :: WithKey(r, metric, MetricKey(z, metric)) == WithKey(stocks, metric, MetricKey(z, metric))
  {
    ByMetricConsistent(metric, direction);
    var r := StableSort.Sort(stocks, ByMetric(metric, direction));
    SortedByMetric(r, metric, direction);
    WithKeyPreserved(stocks, r, metric, direction);
    r
  }

  lemma SortedByMetric(r: seq<Stock>, metric: StockField, direction: Direction)
    requires StableSort.Sorted(r, ByMetric(metric, direction))
    ensures forall i, j :: 0 <= i < j < |r| && MetricKey(r[i], metric).FiniteKey? && MetricKey(r[j], metric).FiniteKey? ==>
      if direction == Desc then MetricKey(r[i], metric).value >= MetricKey(r[j], metric).value
      else MetricKey(r[i], metric).value <= MetricKey(r[j], metric).value
    ensures forall i, j :: 0 <= i < j < |r| ==> !(MetricKey(r[i], metric).NonFiniteKey? && MetricKey(r[j], metric).FiniteKey?)
  {
    forall i, j | 0 <= i < j < |r|
      ensures MetricKey(r[i], metric).FiniteKey? && MetricKey(r[j], metric).FiniteKey? ==>
        if direction == Desc then MetricKey(r[i], metric).value >= MetricKey(r[j], metric).value
        else MetricKey(r[i], metric).value <= MetricKey(r[j], metric).value
      ensures !(MetricKey(r[i], metric).NonFiniteKey? && MetricKey(r[j], metric).FiniteKey?)
    {
      assert ByMetric(metric, direction)(r[i], r[j]) <= 0;
    }
  }

  /** Sorting an already sorted list by the same metric changes nothing. */
  lemma SortStocksIdempotent(stocks: seq<Stock>, metric: StockField, direction: Direction)
    ensures SortStocksByMetric(SortStocksByMetric(stocks, metric, direction), metric, direction)
      == SortStocksByMetric(stocks, metric, direction)
  {
    var r := SortStocksByMetric(stocks, metric, direction);
    ByMetricConsistent(metric, direction);
    StableSort.SortSorted(r, ByMetric(metric, direction));
  }

  // ---------------------------------------------------------------------
  // filterStocks

  /** The optional bounds of `filterStocks`. */
  datatype StockFilters = StockFilters(
    minMarketCap: Option<Num>,
    maxPE: Option<Num>,
    minRevenueGrowth: Option<Num>,
    minROE: Option<Num>)

  const NoFilters: StockFilters := StockFilters(None, None, None, None)

  /** `bound && value < bound`: the stock is rejected by a lower bound. */
  predicate BelowMin(value: Num, bound: Option<Num>) {
    Truthy(bound) && Less(value, bound.value)
  }

  /** `bound && value > bound`: the stock is rejected by an upper bound. */
  predicate AboveMax(value: Num, bound: Option<Num>) {
    Truthy(bound) && Greater(value, bound.value)
  }

  /** The callback given to `stocks.filter`: no check returns `false`. */
  predicate Passes(filters: StockFilters, s: Stock) {
    && !BelowMin(s.marketCap, filters.minMarketCap)
    && !AboveMax(s.pe, filters.maxPE)
    && !BelowMin(s.revenueGrowth, filters.minRevenueGrowth)
    && !BelowMin(s.roe, filters.minROE)
  }

  /** `filterStocks(stocks, filters)`. */
  function FilterStocks(stocks: seq<Stock>, filters: StockFilters): (r: seq<Stock>)
    ensures Subsequence(r, stocks)
    ensures forall i :: 0 <= i < |r| ==> Passes(filters, r[i])
    ensures forall i :: 0 <= i < |stocks| && Passes(filters, stocks[i]) ==> stocks[i] in r
    ensures forall x :: multiset(r)[x] == if Passes(filters, x) then multiset(stocks)[x] else 0
  {
    var keep := (s: Stock) => Passes(filters, s);
    FilterKeeps(keep, stocks);
    FilterCount(keep, stocks);
    Filter(keep, stocks)
  }

  /** The reading of the filter a user would expect: every active bound is
      met, a bound being active when it is truthy. */
  predicate MeetsActiveBounds(filters: StockFilters, s: Stock) {
    && (Truthy(filters.minMarketCap) ==> GreaterEq(s.marketCap, filters.minMarketCap.value))
    && (Truthy(filters.maxPE) ==> LessEq(s.pe, filters.maxPE.value))
    && (Truthy(filters.minRevenueGrowth) ==> GreaterEq(s.revenueGrowth, filters.minRevenueGrowth.value))
    && (Truthy(filters.minROE) ==> GreaterEq(s.roe, filters.minROE.value))
  }

  /** The four metrics the filter reads are numbers, not NaN. */
  predicate FilteredMetricsAreNumbers(s: Stock) {
    !s.marketCap.NaN? && !s.pe.NaN? && !s.revenueGrowth.NaN? && !s.roe.NaN?
  }

  /** For stocks whose filtered metrics are not NaN, `filterStocks`'s
      "not rejected" checks are exactly "meets every active bound". */
  lemma PassesIffMeetsBounds(filters: StockFilters, s: Stock)
    requires FilteredMetricsAreNumbers(s)
    ensures Passes(filters, s) <==> MeetsActiveBounds(filters, s)
  {
    if Truthy(filters.minMarketCap) {
      NotLessIsGreaterEq(s.marketCap, filters.minMarketCap.value);
    }
    if Truthy(filters.maxPE) {
      NotLessIsGreaterEq(filters.maxPE.value, s.pe);
    }
    if Truthy(filters.minRevenueGrowth) {
      NotLessIsGreaterEq(s.revenueGrowth, filters.minRevenueGrowth.value);
    }
    if Truthy(filters.minROE) {
      NotLessIsGreaterEq(s.roe, filters.minROE.value);
    }
  }

  /** A NaN metric never fails a comparison, so no bound rejects it. */
  lemma NaNMetricsPass(filters: StockFilters, s: Stock)
    requires s.marketCap.NaN? && s.pe.NaN? && s.revenueGrowth.NaN? && s.roe.NaN?
    ensures Passes(filters, s)
    ensures (Truthy(filters.minMarketCap) || Truthy(filters.maxPE) || Truthy(filters.minRevenueGrowth)
             || Truthy(filters.minROE)) ==> !MeetsActiveBounds(filters, s)
  {
  }

  /** Every active bound is met by its metric when that metric is a
      number; a NaN metric is measured against no bound. */
  predicate MeetsBoundsSkippingNaN(filters: StockFilters, s: Stock) {
    && (Truthy(filters.minMarketCap) && !s.marketCap.NaN? ==> GreaterEq(s.marketCap, filters.minMarketCap.value))
    && (Truthy(filters.maxPE) && !s.pe.NaN? ==> LessEq(s.pe, filters.maxPE.value))
    && (Truthy(filters.minRevenueGrowth) && !s.revenueGrowth.NaN? ==> GreaterEq(s.revenueGrowth, filters.minRevenueGrowth.value))
    && (Truthy(filters.minROE) && !s.roe.NaN? ==> GreaterEq(s.roe, filters.minROE.value))
  }

  /** For every stock, mixed NaN and numeric metrics included, passing the
      filter is meeting each active bound whose metric is a number. */
  lemma PassesIffMeetsBoundsSkippingNaN(filters: StockFilters, s: Stock)
    ensures Passes(filters, s) <==> MeetsBoundsSkippingNaN(filters, s)
  {
    if Truthy(filters.minMarketCap) && !s.marketCap.NaN? {
      NotLessIsGreaterEq(s.marketCap, filters.minMarketCap.value);
    }
    if Truthy(filters.maxPE) && !s.pe.NaN? {
      NotLessIsGreaterEq(filters.maxPE.value, s.pe);
    }
    if Truthy(filters.minRevenueGrowth) && !s.revenueGrowth.NaN? {
      NotLessIsGreaterEq(s.revenueGrowth, filters.minRevenueGrowth.value);
    }
    if Truthy(filters.minROE) && !s.roe.NaN? {
      NotLessIsGreaterEq(s.roe, filters.minROE.value);
    }
  }

  /** The mixed case: a stock with a NaN P/E and a market cap of 5 is
      rejected by a minimum market cap of 10 and not by a maximum P/E of
      20, which it cannot meet. */
  lemma MixedNaNExample()
    ensures var s := Stock("X", "X Corp", Finite(5.0), NaN, NaN, NaN, NaN, NaN, NaN, NaN,
                   NaN, NaN, NaN, NaN, NaN, NaN, NaN);
      && !Passes(StockFilters(Some(Finite(10.0)), Some(Finite(20.0)), None, None), s)
      && Passes(StockFilters(None, Some(Finite(20.0)), None, None), s)
      && !MeetsActiveBounds(StockFilters(None, Some(Finite(20.0)), None, None), s)
  {
  }

  /** Only the truthiness and value of a bound matter: the bounds with the
      falsy ones (absent, 0 or NaN) dropped. */
  function ActiveOnly(filters: StockFilters): (r: StockFilters)
    ensures forall s :: Passes(r, s) == Passes(filters, s)
  {
    StockFilters(
      if Truthy(filters.minMarketCap) then filters.minMarketCap else None,
      if Truthy(filters.maxPE) then filters.maxPE else None,
      if Truthy(filters.minRevenueGrowth) then filters.minRevenueGrowth else None,
      if Truthy(filters.minROE) then filters.minROE else None)
  }

  /** A bound of 0 (or NaN) is treated exactly like an absent one. */
  lemma FalsyBoundsAreIgnored(stocks: seq<Stock>, filters: StockFilters)
    ensures FilterStocks(stocks, filters) == FilterStocks(stocks, ActiveOnly(filters))
  {
    FilterCongruent((s: Stock) => Passes(filters, s), (s: Stock) => Passes(ActiveOnly(filters), s), stocks);
  }

  /** An empty filter object, or one whose bounds are all 0, keeps every
      stock in order. */
  lemma InactiveFiltersKeepAll(stocks: seq<Stock>, filters: StockFilters)
    requires !Truthy(filters.minMarketCap) && !Truthy(filters.maxPE)
    requires !Truthy(filters.minRevenueGrowth) && !Truthy(filters.minROE)
    ensures FilterStocks(stocks, filters) == stocks
  {
    FilterAll((s: Stock) => Passes(filters, s), stocks);
  }

  lemma ZeroBoundsKeepAll(stocks: seq<Stock>)
    ensures FilterStocks(stocks, NoFilters) == stocks
    ensures FilterStocks(stocks, StockFilters(Some(Finite(0.0)), Some(Finite(0.0)), Some(Finite(0.0)), Some(Finite(0.0)))) == stocks
  {
    InactiveFiltersKeepAll(stocks, NoFilters);
    InactiveFiltersKeepAll(stocks, StockFilters(Some(Finite(0.0)), Some(Finite(0.0)), Some(Finite(0.0)), Some(Finite(0.0))));
  }

  /** Filtering twice with the same bounds is filtering once. */
  lemma FilterStocksIdempotent(stocks: seq<Stock>, filters: StockFilters)
    ensures FilterStocks(FilterStocks(stocks, filters), filters) == FilterStocks(stocks, filters)
  {
    FilterIdempotent((s: Stock) => Passes(filters, s), stocks);
  }

  // ---------------------------------------------------------------------
  // getStockPerformanceSummary

  /** How many of the thresholds `x` is strictly above (IEEE `>`). The
      tiers below are exactly these counts. */
  function Exceeded(x: Num, thresholds: seq<real>): nat
    decreases |thresholds|
  {
    if thresholds == [] then 0
    else (if Greater(x, Finite(thresholds[0])) then 1 else 0) + Exceeded(x, thresholds[1..])
  }

  /** A larger number is above at least as many thresholds. */
  lemma {:induction false} ExceededMonotone(a: Num, b: Num, thresholds: seq<real>)
    requires LessEq(a, b)
    ensures Exceeded(a, thresholds) <= Exceeded(b, thresholds)
    decreases |thresholds|
  {
    if thresholds != [] {
      ExceededMonotone(a, b, thresholds[1..]);
      if Greater(a, Finite(thresholds[0])) {
        LessEqTrans(Finite(thresholds[0]), a, b);
      }
    }
  }

  datatype Valuation = Undervalued | FairValue | Expensive {
    function Label(): string {
      match this
      case Undervalued => "Undervalued"
      case FairValue => "Fair Value"
      case Expensive => "Expensive"
    }
    /** Cheapest first. */
    function Tier(): nat {
      match this
      case Undervalued => 0
      case FairValue => 1
      case Expensive => 2
    }
  }

  datatype Growth = Declining | LowGrowth | ModerateGrowth | HighGrowth {
    function Label(): string {
      match this
      case Declining => "Declining"
      case LowGrowth => "Low Growth"
      case ModerateGrowth => "Moderate Growth"
      case HighGrowth => "High Growth"
    }
    function Tier(): nat {
      match this
      case Declining => 0
      case LowGrowth => 1
      case ModerateGrowth => 2
      case HighGrowth => 3
    }
  }

  datatype Risk = VeryLowRisk | LowRisk | MarketRisk | HighRisk {
    function Label(): string {
      match this
      case VeryLowRisk => "Very Low Risk"
      case LowRisk => "Low Risk"
      case MarketRisk => "Market Risk"
      case HighRisk => "High Risk"
    }
    function Tier(): nat {
      match this
      case VeryLowRisk => 0
      case LowRisk => 1
      case MarketRisk => 2
      case HighRisk => 3
    }
  }

  datatype Profitability = Unprofitable | BelowAverage | Average | Good | Excellent {
    function Label(): string {
      match this
      case Unprofitable => "Unprofitable"
      case BelowAverage => "Below Average"
      case Average => "Average"
      case Good => "Good"
      case Excellent => "Excellent"
    }
    function Tier(): nat {
      match this
      case Unprofitable => 0
      case BelowAverage => 1
      case Average => 2
      case Good => 3
      case Excellent => 4
    }
  }

  const GrowthThresholds: seq<real> := [0.0, 10.0, 25.0]
  const RiskThresholds: seq<real> := [0.5, 1.0, 1.5]
  const ProfitabilityThresholds: seq<real> := [0.0, 10.0, 15.0, 20.0]

  /** The valuation of a P/E ratio: below 15 is cheap, above 30 expensive,
      anything else (NaN included) fair. */
  function ValuationOf(pe: Num): (v: Valuation)
    ensures v == Undervalued <==> Less(pe, Finite(15.0))
    ensures v == Expensive <==> Greater(pe, Finite(30.0))
    ensures v.Tier() == (if Less(pe, Finite(15.0)) then 0 else 1) + (if Greater(pe, Finite(30.0)) then 1 else 0)
  {
    if Less(pe, Finite(15.0)) then Undervalued
    else if Greater(pe, Finite(30.0)) then Expensive
    else FairValue
  }

  /** First matching threshold, highest first. */
  function GrowthOf(revenueGrowth: Num): (g: Growth)
    ensures g.Tier() == Exceeded(revenueGrowth, GrowthThresholds)
  {
    ExceededThree(revenueGrowth, 0.0, 10.0, 25.0);
    if Greater(revenueGrowth, Finite(25.0)) then HighGrowth
    else if Greater(revenueGrowth, Finite(10.0)) then ModerateGrowth
    else if Greater(revenueGrowth, Finite(0.0)) then LowGrowth
    else Declining
  }

  function RiskOf(beta: Num): (r: Risk)
    ensures r.Tier() == Exceeded(beta, RiskThresholds)
  {
    ExceededThree(beta, 0.5, 1.0, 1.5);
    if Greater(beta, Finite(1.5)) then HighRisk
    else if Greater(beta, Finite(1.0)) then MarketRisk
    else if Greater(beta, Finite(0.5)) then LowRisk
    else VeryLowRisk
  }

  function ProfitabilityOf(roe: Num): (p: Profitability)
    ensures p.Tier() == Exceeded(roe, ProfitabilityThresholds)
  {
    ExceededFour(roe, 0.0, 10.0, 15.0, 20.0);
    if Greater(roe, Finite(20.0)) then Excellent
    else if Greater(roe, Finite(15.0)) then Good
    else if Greater(roe, Finite(10.0)) then Average
    else if Greater(roe, Finite(0.0)) then BelowAverage
    else Unprofitable
  }

  lemma ExceededThree(x: Num, t0: real, t1: real, t2: real)
    ensures Exceeded(x, [t0, t1, t2]) ==
      (if Greater(x, Finite(t0)) then 1 else 0) + (if Greater(x, Finite(t1)) then 1 else 0) + (if Greater(x, Finite(t2)) then 1 else 0)
  {
    assert [t0, t1, t2][1..] == [t1, t2];
    assert [t1, t2][1..] == [t2];
    assert [t2][1..] == [];
    assert Exceeded(x, [t2]) == (if Greater(x, Finite(t2)) then 1 else 0);
    assert Exceeded(x, [t1, t2]) == (if Greater(x, Finite(t1)) then 1 else 0) + Exceeded(x, [t2]);
  }

  lemma ExceededFour(x: Num, t0: real, t1: real, t2: real, t3: real)
    ensures Exceeded(x, [t0, t1, t2, t3]) == (if Greater(x, Finite(t0)) then 1 else 0) + Exceeded(x, [t1, t2, t3])
  {
    assert [t0, t1, t2, t3][1..] == [t1, t2, t3];
  }

  /** The result of `getStockPerformanceSummary`. */
  datatype PerformanceSummary = PerformanceSummary(
    symbol: string,
    company: string,
    valuation: Valuation,
    growth: Growth,
    risk: Risk,
    profitability: Profitability)

  /** `getStockPerformanceSummary(stock)`. */
  function GetStockPerformanceSummary(s: Stock): (r: PerformanceSummary)
    ensures r.symbol == s.symbol && r.company == s.company
    ensures r.valuation.Tier() == (if Less(s.pe, Finite(15.0)) then 0 else 1) + (if Greater(s.pe, Finite(30.0)) then 1 else 0)
    ensures r.growth.Tier() == Exceeded(s.revenueGrowth, GrowthThresholds)
    ensures r.risk.Tier() == Exceeded(s.beta, RiskThresholds)
    ensures r.profitability.Tier() == Exceeded(s.roe, ProfitabilityThresholds)
  {
    PerformanceSummary(s.symbol, s.company, ValuationOf(s.pe), GrowthOf(s.revenueGrowth),
                       RiskOf(s.beta), ProfitabilityOf(s.roe))
  }

  /** Raising a metric never moves its category to a lower tier. */
  lemma SummaryMonotone(a: Stock, b: Stock)
    requires LessEq(a.pe, b.pe) && LessEq(a.revenueGrowth, b.revenueGrowth)
    requires LessEq(a.beta, b.beta) && LessEq(a.roe, b.roe)
    ensures GetStockPerformanceSummary(a).valuation.Tier() <= GetStockPerformanceSummary(b).valuation.Tier()
    ensures GetStockPerformanceSummary(a).growth.Tier() <= GetStockPerformanceSummary(b).growth.Tier()
    ensures GetStockPerformanceSummary(a).risk.Tier() <= GetStockPerformanceSummary(b).risk.Tier()
    ensures GetStockPerformanceSummary(a).profitability.Tier() <= GetStockPerformanceSummary(b).profitability.Tier()
  {
    ExceededMonotone(a.revenueGrowth, b.revenueGrowth, GrowthThresholds);
    ExceededMonotone(a.beta, b.beta, RiskThresholds);
    ExceededMonotone(a.roe, b.roe, ProfitabilityThresholds);
  }

  /** The labels are the strings `getStockPerformanceSummary` returns, one per category value. */
  lemma LabelsDistinct()
    ensures forall v: Valuation, w: Valuation :: v.Label() == w.Label() ==> v == w
    ensures forall g: Growth, h: Growth :: g.Label() == h.Label() ==> g == h
    ensures forall r: Risk, q: Risk :: r.Label() == q.Label() ==> r == q
    ensures forall p: Profitability, q: Profitability :: p.Label() == q.Label() ==> p == q
  {
  }

  // ---------------------------------------------------------------------
  // Performance flags of formatParsedDataForDisplay

  datatype PerformanceFlags = PerformanceFlags(
    isPositiveYTD: bool,
    isPositive52Week: bool,
    isGrowthStock: bool,
    isProfitable: bool)

  /** A number above `bound`: a larger real or +Infinity. */
  predicate IsAbove(n: Num, bound: real) {
    n.PosInf? || (n.Finite? && n.value > bound)
  }

  /** A number above zero. */
  predicate IsPositive(n: Num) {
    IsAbove(n, 0.0)
  }

  /** The four flags of `formatParsedDataForDisplay`. */
  function FlagsOf(s: Stock): (f: PerformanceFlags)
    ensures f.isPositiveYTD <==> IsPositive(s.ytdReturn)
    ensures f.isPositive52Week <==> IsPositive(s.weekReturn52)
    ensures f.isGrowthStock <==> IsAbove(s.revenueGrowth, 20.0)
    ensures f.isProfitable <==> IsPositive(s.roe)
    ensures f.isProfitable <==> GetStockPerformanceSummary(s).profitability != Unprofitable
    ensures GetStockPerformanceSummary(s).growth == HighGrowth ==> f.isGrowthStock
    ensures f.isGrowthStock ==> GetStockPerformanceSummary(s).growth.Tier() >= ModerateGrowth.Tier()
  {
    PerformanceFlags(
      Greater(s.ytdReturn, Finite(0.0)),
      Greater(s.weekReturn52, Finite(0.0)),
      Greater(s.revenueGrowth, Finite(20.0)),
      Greater(s.roe, Finite(0.0)))
  }
}

=== FILE: symbol_news.dfy ===
/** Company news for a list of cleaned ticker symbols: a bounded
    round-robin over the symbols with a per-call cache of each symbol's
    valid articles and a per-symbol read offset, then a stable sort,
    newest first (`fetchSymbolNews`, lib/actions/finnhub.actions.ts). */
module SymbolNews {
  import opened Wrappers
  import opened Articles
  import opened Seqs
  import StableSort

  /** What a round did about the provider: nothing (the symbol was cached),
      a request that threw, or a request whose articles are now cached. */
  datatype FetchOutcome = NotFetched | FetchFailed | FetchSucceeded

  /** One executed round: the symbol it targeted, its provider request, and
      the read offset of the article it consumed, if any. */
  datatype RoundRecord = RoundRecord(symbol: string, fetch: FetchOutcome, taken: Option<nat>)

  /** The loop state: `articlesBySymbol`, `offsets`, `collectedArticles`,
      and the record of the rounds executed so far (round r is `trace[r]`). */
  datatype Collector = Collector(
    cache: map<string, seq<RawNewsArticle>>,
    offsets: map<string, nat>,
    collected: seq<MarketNewsArticle>,
    trace: seq<RoundRecord>)

  const Start: Collector := Collector(map[], map[], [], [])

  /** `offsets.get(symbol) ?? 0`. */
  function Offset(offsets: map<string, nat>, symbol: string): nat {
    if symbol in offsets then offsets[symbol] else 0
  }

  /** Some round of `t` fetched `symbol` successfully. */
  predicate Succeeded(t: seq<RoundRecord>, symbol: string)
    decreases |t|
  {
    t != [] && (Succeeded(t[..|t| - 1], symbol) || (t[|t| - 1].symbol == symbol && t[|t| - 1].fetch == FetchSucceeded))
  }

  /** How many rounds of `t` consumed an article of `symbol`. */
  function Taken(t: seq<RoundRecord>, symbol: string): nat
    decreases |t|
  {
    if t == [] then 0
    else Taken(t[..|t| - 1], symbol) + (if t[|t| - 1].symbol == symbol && t[|t| - 1].taken.Some? then 1 else 0)
  }

  /** The articles the rounds of `t` emitted, in round order: round r,
      consuming position k of its symbol's cached list, emits that article
      formatted as company news of the symbol with index r. */
  function Emitted(t: seq<RoundRecord>, cache: map<string, seq<RawNewsArticle>>,
                   format: (RawNewsArticle, bool, Option<string>, nat) -> MarketNewsArticle): seq<MarketNewsArticle>
    decreases |t|
  {
    if t == [] then []
    else
      var r := |t| - 1;
      var s := t[r].symbol;
      Emitted(t[..r], cache, format)
        + (match t[r].taken
           case Some(k) => if s in cache && k < |cache[s]| then [format(cache[s][k], true, Some(s), r)] else []
           case None => [])
  }

  /** One iteration of the round loop, the body of its `try` block. */
  function PlayRound(symbols: seq<string>, window: DateWindow, env: Env, round: nat, c: Collector): (c': Collector)
    requires |symbols| > 0
    ensures |c'.trace| == |c.trace| + 1 && c'.trace[..|c.trace|] == c.trace
    ensures c'.trace[|c.trace|].symbol == symbols[round % |symbols|]
  {
    var symbol := symbols[round % |symbols|];
    if symbol !in c.cache && env.companyNews(symbol, window, round).Failure? then
      // the request threw: caught, logged, and the round produces nothing
      c.(trace := c.trace + [RoundRecord(symbol, FetchFailed, None)])
    else
      var fetch := if symbol in c.cache then NotFetched else FetchSucceeded;
      var cache :=
        if symbol in c.cache then c.cache
        else c.cache[symbol := Filter(env.validate, env.companyNews(symbol, window, round).value)];
      var articles := cache[symbol];
      var offset := Offset(c.offsets, symbol);
      if offset < |articles| then
        Collector(cache, c.offsets[symbol := offset + 1],
                  c.collected + [env.format(articles[offset], true, Some(symbol), round)],
                  c.trace + [RoundRecord(symbol, fetch, Some(offset))])
      else
        Collector(cache, c.offsets, c.collected, c.trace + [RoundRecord(symbol, fetch, None)])
  }

  /** What round `r` of `c.trace` did, in terms of the inputs. */
  ghost predicate RoundCoherent(symbols: seq<string>, window: DateWindow, env: Env, c: Collector, r: nat)
    requires |symbols| > 0 && r < |c.trace|
  {
    var rec := c.trace[r];
    var s := rec.symbol;
    var response := env.companyNews(s, window, r);
    // round r targets symbols[r mod n]
    && s == symbols[r % |symbols|]
    // a request is made exactly when no earlier request for s succeeded
    && (rec.fetch != NotFetched <==> !Succeeded(c.trace[..r], s))
    // a failed request consumes nothing
    && (rec.fetch == FetchFailed ==> response.Failure? && rec.taken == None)
    // a successful request caches the valid articles of its response
    && (rec.fetch == FetchSucceeded ==>
          response.Success? && s in c.cache && c.cache[s] == Filter(env.validate, response.value))
    // otherwise the next unread cached article is consumed, if any is left
    && (rec.fetch != FetchFailed ==>
          && s in c.cache
          && match rec.taken
             case Some(k) => k == Taken(c.trace[..r], s) && k < |c.cache[s]|
             case None => Taken(c.trace[..r], s) >= |c.cache[s]|)
  }

  /** The loop invariant: every executed round did what a round of
      `fetchSymbolNews` does, the cache holds exactly the symbols fetched successfully, each offset
      counts the articles consumed for its symbol, and the collected
      articles are those the rounds emitted. */
  ghost predicate Coherent(symbols: seq<string>, window: DateWindow, env: Env, c: Collector) {
    && |symbols| > 0
    && (forall r :: 0 <= r < |c.trace| ==> RoundCoherent(symbols, window, env, c, r))
    && (forall s :: s in c.cache <==> Succeeded(c.trace, s))
    && (forall s :: Offset(c.offsets, s) == Taken(c.trace, s))
    && c.collected == Emitted(c.trace, c.cache, env.format)
  }

  lemma SucceededAppend(t: seq<RoundRecord>, rec: RoundRecord, s: string)
    ensures Succeeded(t + [rec], s) <==> Succeeded(t, s) || (rec.symbol == s && rec.fetch == FetchSucceeded)
  {
    assert (t + [rec])[..|t|] == t;
  }

  lemma TakenAppend(t: seq<RoundRecord>, rec: RoundRecord, s: string)
    ensures Taken(t + [rec], s) == Taken(t, s) + (if rec.symbol == s && rec.taken.Some? then 1 else 0)
  {
    assert (t + [rec])[..|t|] == t;
  }

  /** Emitted articles only depend on the cache entries of symbols that
      were consumed from. */
  lemma {:induction false} EmittedFrame(t: seq<RoundRecord>, c1: map<string, seq<RawNewsArticle>>,
                                        c2: map<string, seq<RawNewsArticle>>,
                                        format: (RawNewsArticle, bool, Option<string>, nat) -> MarketNewsArticle)
    requires forall r :: 0 <= r < |t| && t[r].taken.Some? ==>
               t[r].symbol in c1 && t[r].symbol in c2 && c1[t[r].symbol] == c2[t[r].symbol]
    ensures Emitted(t, c1, format) == Emitted(t, c2, format)
    decreases |t|
  {
    if t != [] {
      var n := |t| - 1;
      assert forall r :: 0 <= r < n ==> t[..n][r] == t[r];
      EmittedFrame(t[..n], c1, c2, format);
    }
  }

  /** Rounds already played stay coherent when a round is appended and the
      cache only gains a new key. */
  lemma RoundCoherentExtends(symbols: seq<string>, window: DateWindow, env: Env, c: Collector, c': Collector, r: nat)
    requires |symbols| > 0 && r < |c.trace| <= |c'.trace|
    requires c'.trace[..|c.trace|] == c.trace
    requires forall s :: s in c.cache ==> s in c'.cache && c'.cache[s] == c.cache[s]
    requires RoundCoherent(symbols, window, env, c, r)
    ensures RoundCoherent(symbols, window, env, c', r)
  {
    assert c'.trace[r] == c.trace[r];
    assert c'.trace[..r] == c.trace[..r];
  }

  /** What one round does to the cache and the offsets. */
  lemma PlayRoundEffects(symbols: seq<string>, window: DateWindow, env: Env, round: nat, c: Collector)
    requires |symbols| > 0
    ensures var c' := PlayRound(symbols, window, env, round, c);
      var rec := c'.trace[|c.trace|];
      && (forall x :: x in c.cache ==> x in c'.cache && c'.cache[x] == c.cache[x])
      && (forall x :: x in c'.cache <==> x in c.cache || (x == rec.symbol && rec.fetch == FetchSucceeded))
      && (forall x :: Offset(c'.offsets, x) == Offset(c.offsets, x) + (if x == rec.symbol && rec.taken.Some? then 1 else 0))
      && (rec.fetch == NotFetched <==> rec.symbol in c.cache)
  {
  }

  /** The round just played is coherent. */
  lemma NewRoundCoherent(symbols: seq<string>, window: DateWindow, env: Env, round: nat, c: Collector)
    requires round == |c.trace|
    requires Coherent(symbols, window, env, c)
    ensures RoundCoherent(symbols, window, env, PlayRound(symbols, window, env, round, c), round)
  {
    var c' := PlayRound(symbols, window, env, round, c);
    assert c'.trace[..round] == c.trace;
    PlayRoundEffects(symbols, window, env, round, c);
  }

  /** The articles collected so far are still the ones emitted. */
  lemma PlayRoundEmitted(symbols: seq<string>, window: DateWindow, env: Env, round: nat, c: Collector)
    requires round == |c.trace|
    requires Coherent(symbols, window, env, c)
    ensures var c' := PlayRound(symbols, window, env, round, c);
      c'.collected == Emitted(c'.trace, c'.cache, env.format)
  {
    var c' := PlayRound(symbols, window, env, round, c);
    PlayRoundEffects(symbols, window, env, round, c);
    forall r | 0 <= r < round && c.trace[r].taken.Some?
      ensures c.trace[r].symbol in c.cache && c.trace[r].symbol in c'.cache
      ensures c.cache[c.trace[r].symbol] == c'.cache[c.trace[r].symbol]
    {
      assert RoundCoherent(symbols, window, env, c, r);
    }
    EmittedFrame(c.trace, c.cache, c'.cache, env.format);
    assert c'.trace[..round] == c.trace;
  }

  /** One round preserves the invariant. */
  lemma PlayRoundCoherent(symbols: seq<string>, window: DateWindow, env: Env, round: nat, c: Collector)
    requires round == |c.trace|
    requires Coherent(symbols, window, env, c)
    ensures Coherent(symbols, window, env, PlayRound(symbols, window, env, round, c))
  {
    var c' := PlayRound(symbols, window, env, round, c);
    var rec := c'.trace[round];
    assert c'.trace == c.trace + [rec];
    PlayRoundEffects(symbols, window, env, round, c);
    forall r | 0 <= r < round ensures RoundCoherent(symbols, window, env, c', r) {
      RoundCoherentExtends(symbols, window, env, c, c', r);
    }
    NewRoundCoherent(symbols, window, env, round, c);
    forall x ensures x in c'.cache <==> Succeeded(c'.trace, x) {
      SucceededAppend(c.trace, rec, x);
    }
    forall x ensures Offset(c'.offsets, x) == Taken(c'.trace, x) {
      TakenAppend(c.trace, rec, x);
    }
    PlayRoundEmitted(symbols, window, env, round, c);
  }

  /** The round loop from round `round` on: `continue` after a caught
      failure, `break` once six articles are collected. */
  function RunRounds(symbols: seq<string>, window: DateWindow, env: Env, round: nat, c: Collector): (c': Collector)
    requires round == |c.trace| <= MaxRounds
    requires Coherent(symbols, window, env, c)
    ensures Coherent(symbols, window, env, c')
    ensures |c.trace| <= |c'.trace| <= MaxRounds && c'.trace[..|c.trace|] == c.trace
    ensures |c'.trace| == MaxRounds || |c'.collected| >= MaxArticles
    decreases MaxRounds - round
  {
    if round >= MaxRounds then c
    else
      var next := PlayRound(symbols, window, env, round, c);
      PlayRoundCoherent(symbols, window, env, round, c);
      if next.trace[round].fetch == FetchFailed then
        var c' := RunRounds(symbols, window, env, round + 1, next);
        assert c'.trace[..|c.trace|] == c'.trace[..|next.trace|][..|c.trace|];
        c'
      else if |next.collected| >= MaxArticles then next
      else
        var c' := RunRounds(symbols, window, env, round + 1, next);
        assert c'.trace[..|c.trace|] == c'.trace[..|next.trace|][..|c.trace|];
        c'
  }

  /** The whole round-robin collection for one call. */
  function Collect(symbols: seq<string>, window: DateWindow, env: Env): (c: Collector)
    requires |symbols| > 0
    ensures Coherent(symbols, window, env, c)
    ensures |c.trace| <= MaxRounds
    ensures |c.trace| == MaxRounds || |c.collected| >= MaxArticles
  {
    RunRounds(symbols, window, env, 0, Start)
  }

  /** `(a, b) => b.datetime - a.datetime`: most recent first. */
  function NewestFirst(a: MarketNewsArticle, b: MarketNewsArticle): (r: int)
    ensures r < 0 <==> a.datetime > b.datetime
    ensures r == 0 <==> a.datetime == b.datetime
  {
    b.datetime - a.datetime
  }

  lemma NewestFirstConsistent()
    ensures StableSort.IsConsistent(NewestFirst)
  {
  }

  /** The articles of `s` published at time `d`, in their order in `s`. */
  function PublishedAt(s: seq<MarketNewsArticle>, d: int): seq<MarketNewsArticle>
    decreases |s|
  {
    if s == [] then [] else (if s[0].datetime == d then [s[0]] else []) + PublishedAt(s[1..], d)
  }

  lemma {:induction false} TiesArePublishedAt(s: seq<MarketNewsArticle>, z: MarketNewsArticle)
    ensures StableSort.Ties(s, z, NewestFirst) == PublishedAt(s, z.datetime)
    decreases |s|
  {
    if s != [] {
      TiesArePublishedAt(s[1..], z);
    }
  }

  lemma {:induction false} EmittedLength(t: seq<RoundRecord>, cache: map<string, seq<RawNewsArticle>>,
                                         format: (RawNewsArticle, bool, Option<string>, nat) -> MarketNewsArticle)
    ensures |Emitted(t, cache, format)| <= |t|
    decreases |t|
  {
    if t != [] {
      EmittedLength(t[..|t| - 1], cache, format);
    }
  }

  /** `articles.sort((a, b) => b.datetime - a.datetime)`: newest first, and,
      the sort being stable, articles with the same timestamp keep their
      relative order. */
  function SortNewestFirst(s: seq<MarketNewsArticle>): (r: seq<MarketNewsArticle>)
    ensures multiset(r) == multiset(s)
    ensures forall i, j :: 0 <= i < j < |r| ==> r[i].datetime >= r[j].datetime
    ensures forall d :: PublishedAt(r, d) == PublishedAt(s, d)
  {
    NewestFirstConsistent();
    var r := StableSort.Sort(s, NewestFirst);
    NewestFirstTies(s, r);
    r
  }

  lemma NewestFirstTies(s: seq<MarketNewsArticle>, r: seq<MarketNewsArticle>)
    requires forall z :: StableSort.Ties(r, z, NewestFirst) == StableSort.Ties(s, z, NewestFirst)
    ensures forall d :: PublishedAt(r, d) == PublishedAt(s, d)
  {
    forall d ensures PublishedAt(r, d) == PublishedAt(s, d) {
      var z := MarketNewsArticle(0, "", "", "", "", d, "", "", None);
      TiesArePublishedAt(r, z);
      TiesArePublishedAt(s, z);
    }
  }

  /** `fetchSymbolNews`: the collected articles sorted newest first. */
  function FetchSymbolNews(symbols: seq<string>, window: DateWindow, env: Env): (r: seq<MarketNewsArticle>)
    requires |symbols| > 0
    ensures |r| <= MaxArticles
    ensures multiset(r) == multiset(Collect(symbols, window, env).collected)
    ensures forall i, j :: 0 <= i < j < |r| ==> r[i].datetime >= r[j].datetime
    ensures forall d :: PublishedAt(r, d) == PublishedAt(Collect(symbols, window, env).collected, d)
  {
    var c := Collect(symbols, window, env);
    var r := SortNewestFirst(c.collected);
    EmittedLength(c.trace, c.cache, env.format);
    assert |r| == |multiset(r)| == |c.collected|;
    r
  }

  // ---------------------------------------------------------------------
  // Properties of the round-robin collection

  lemma {:induction false} SucceededWitness(t: seq<RoundRecord>, s: string) returns (r: nat)
    requires Succeeded(t, s)
    ensures r < |t| && t[r].symbol == s && t[r].fetch == FetchSucceeded
    decreases |t|
  {
    var n := |t| - 1;
    if t[n].symbol == s && t[n].fetch == FetchSucceeded {
      r := n;
    } else {
      r := SucceededWitness(t[..n], s);
    }
  }

  lemma {:induction false} SucceededPrefix(t: seq<RoundRecord>, r: nat, k: nat)
    requires r < k <= |t| && t[r].fetch == FetchSucceeded
    ensures Succeeded(t[..k], t[r].symbol)
    decreases k
  {
    assert t[..k][..k - 1] == t[..k - 1];
    if r < k - 1 {
      SucceededPrefix(t, r, k - 1);
    }
  }

  lemma {:induction false} TakenMonotone(t: seq<RoundRecord>, s: string, j: nat, k: nat)
    requires j <= k <= |t|
    ensures Taken(t[..j], s) <= Taken(t[..k], s)
    ensures j < k && t[j].symbol == s && t[j].taken.Some? ==> Taken(t[..j], s) < Taken(t[..k], s)
    decreases k - j
  {
    if j < k {
      TakenMonotone(t, s, j + 1, k);
      assert t[..j + 1][..j] == t[..j];
    }
  }

  /** Round r targets `symbols[r mod n]`: symbols are visited cyclically in
      input order, and at most six rounds run. */
  lemma RoundRobinOrder(symbols: seq<string>, window: DateWindow, env: Env)
    requires |symbols| > 0
    ensures var c := Collect(symbols, window, env);
      && |c.trace| <= MaxRounds
      && forall r :: 0 <= r < |c.trace| ==> c.trace[r].symbol == symbols[r % |symbols|]
  {
    var c := Collect(symbols, window, env);
    forall r | 0 <= r < |c.trace| ensures c.trace[r].symbol == symbols[r % |symbols|] {
      assert RoundCoherent(symbols, window, env, c, r);
    }
  }

  /** At most one article per round and at most six in all. Since there
      are as many rounds as articles allowed, the `break` can only fire in
      the last round: every call runs all six rounds. */
  lemma CollectBounds(symbols: seq<string>, window: DateWindow, env: Env)
    requires |symbols| > 0
    ensures var c := Collect(symbols, window, env);
      && |c.collected| <= |c.trace|
      && |c.collected| <= MaxArticles
      && |c.trace| == MaxRounds
  {
    var c := Collect(symbols, window, env);
    EmittedLength(c.trace, c.cache, env.format);
  }

  /** Each symbol's valid articles are consumed in provider order, one
      position per round: the offset a round reads is the number of earlier
      rounds that consumed the same symbol. Hence no position is emitted
      twice, even when a symbol occurs twice in the input. */
  lemma ConsumedInOrder(symbols: seq<string>, window: DateWindow, env: Env)
    requires |symbols| > 0
    ensures var c := Collect(symbols, window, env);
      forall r1, r2 :: 0 <= r1 < r2 < |c.trace| && c.trace[r1].symbol == c.trace[r2].symbol
                       && c.trace[r1].taken.Some? && c.trace[r2].taken.Some?
                       ==> c.trace[r1].taken.value < c.trace[r2].taken.value
  {
    var c := Collect(symbols, window, env);
    forall r1, r2 | 0 <= r1 < r2 < |c.trace| && c.trace[r1].symbol == c.trace[r2].symbol
                    && c.trace[r1].taken.Some? && c.trace[r2].taken.Some?
      ensures c.trace[r1].taken.value < c.trace[r2].taken.value
    {
      assert RoundCoherent(symbols, window, env, c, r1);
      assert RoundCoherent(symbols, window, env, c, r2);
      TakenMonotone(c.trace, c.trace[r1].symbol, r1, r2);
    }
  }

  /** A symbol is requested only while it has no cache entry: after a
      successful request it is never requested again in the call, while a
      failed request leaves no entry, consumes nothing, and the symbol is
      requested again on its next turn. */
  lemma FetchDiscipline(symbols: seq<string>, window: DateWindow, env: Env)
    requires |symbols| > 0
    ensures var c := Collect(symbols, window, env);
      && (forall r1, r2 ::
            (0 <= r1 < r2 < |c.trace| && c.trace[r1].symbol == c.trace[r2].symbol && c.trace[r1].fetch == FetchSucceeded)
            ==> c.trace[r2].fetch == NotFetched)
      && (forall r :: 0 <= r < |c.trace| && c.trace[r].fetch == FetchFailed ==>
            env.companyNews(c.trace[r].symbol, window, r).Failure? && c.trace[r].taken == None)
      && (forall r :: 0 <= r < |c.trace| && c.trace[r].fetch == NotFetched ==>
            exists r' :: 0 <= r' < r && c.trace[r'].symbol == c.trace[r].symbol && c.trace[r'].fetch == FetchSucceeded)
      && (forall r :: 0 <= r < |c.trace| && c.trace[r].fetch != NotFetched ==>
            forall r' :: 0 <= r' < r && c.trace[r'].symbol == c.trace[r].symbol ==> c.trace[r'].fetch != FetchSucceeded)
  {
    var c := Collect(symbols, window, env);
    var t := c.trace;
    forall r1, r2 | 0 <= r1 < r2 < |t| && t[r1].symbol == t[r2].symbol && t[r1].fetch == FetchSucceeded
      ensures t[r2].fetch == NotFetched
    {
      assert RoundCoherent(symbols, window, env, c, r2);
      SucceededPrefix(t, r1, r2);
    }
    forall r | 0 <= r < |t| && t[r].fetch == FetchFailed
      ensures env.companyNews(t[r].symbol, window, r).Failure? && t[r].taken == None
    {
      assert RoundCoherent(symbols, window, env, c, r);
    }
    forall r | 0 <= r < |t| && t[r].fetch == NotFetched
      ensures exists r' :: 0 <= r' < r && t[r'].symbol == t[r].symbol && t[r'].fetch == FetchSucceeded
    {
      assert RoundCoherent(symbols, window, env, c, r);
      var r' := SucceededWitness(t[..r], t[r].symbol);
      assert t[..r][r'] == t[r'];
    }
    forall r, r' | 0 <= r < |t| && t[r].fetch != NotFetched && 0 <= r' < r && t[r'].symbol == t[r].symbol
      ensures t[r'].fetch != FetchSucceeded
    {
      assert RoundCoherent(symbols, window, env, c, r);
    }
  }

  /** When every request succeeds with at least six valid articles, all six
      rounds run and each emits one article of its symbol. The hypothesis
      is deliberately generous: only the first request of each symbol
      matters, and it would be enough for that response to hold as many
      valid articles as there are rounds that visit the symbol. */
  lemma {:induction false} FairWhenPlentiful(symbols: seq<string>, window: DateWindow, env: Env)
    requires |symbols| > 0
    requires forall s, r :: env.companyNews(s, window, r).Success?
    requires forall s, r :: |Filter(env.validate, env.companyNews(s, window, r).value)| >= MaxArticles
    ensures var c := Collect(symbols, window, env);
      && |c.trace| == MaxRounds
      && |c.collected| == MaxArticles
      && forall r :: 0 <= r < MaxRounds ==> c.trace[r].taken.Some? && c.trace[r].symbol == symbols[r % |symbols|]
  {
    var c := Collect(symbols, window, env);
    var t := c.trace;
    forall r | 0 <= r < |t| ensures t[r].taken.Some? {
      assert RoundCoherent(symbols, window, env, c, r);
      var s := t[r].symbol;
      assert |c.cache[s]| >= MaxArticles by {
        var w := SucceededWitness(t, s);
        assert RoundCoherent(symbols, window, env, c, w);
      }
      TakenMonotone(t, s, r, r);
      TakenBound(t[..r], s);
    }
    EmittedAll(t, c.cache, env.format, symbols, window, env, c);
    RoundRobinOrder(symbols, window, env);
  }

  lemma {:induction false} TakenBound(t: seq<RoundRecord>, s: string)
    ensures Taken(t, s) <= |t|
    decreases |t|
  {
    if t != [] {
      TakenBound(t[..|t| - 1], s);
    }
  }

  /** When every round consumed an article, each emitted one. */
  lemma EmittedAll(t: seq<RoundRecord>, cache: map<string, seq<RawNewsArticle>>,
                   format: (RawNewsArticle, bool, Option<string>, nat) -> MarketNewsArticle,
                   symbols: seq<string>, window: DateWindow, env: Env, c: Collector)
    requires Coherent(symbols, window, env, c) && t == c.trace && cache == c.cache && format == env.format
    requires forall r :: 0 <= r < |t| ==> t[r].taken.Some?
    ensures |c.collected| == |t|
  {
    forall r | 0 <= r < |t|
      ensures t[r].symbol in cache && t[r].taken.value < |cache[t[r].symbol]|
    {
      assert RoundCoherent(symbols, window, env, c, r);
    }
    EmittedCount(t, cache, format);
  }

  lemma {:induction false} EmittedCount(t: seq<RoundRecord>, cache: map<string, seq<RawNewsArticle>>,
                                        format: (RawNewsArticle, bool, Option<string>, nat) -> MarketNewsArticle)
    requires forall r :: 0 <= r < |t| ==>
               t[r].taken.Some? && t[r].symbol in cache && t[r].taken.value < |cache[t[r].symbol]|
    ensures |Emitted(t, cache, format)| == |t|
    decreases |t|
  {
    if t != [] {
      var n := |t| - 1;
      assert forall r :: 0 <= r < n ==> t[..n][r] == t[r];
      EmittedCount(t[..n], cache, format);
    }
  }
}

=== FILE: text.dfy ===
/** The string operations the news aggregator and the middleware rely on:
    ECMAScript `trim`, `toUpperCase` (ASCII letters), `startsWith`, and the
    decimal rendering of an integer inside a template literal. */
module Text {

  /** The characters ECMAScript `String.prototype.trim` removes: the
      WhiteSpace and LineTerminator code points of ECMA-262 section 12.2
      and 12.3. */
  predicate IsWhitespace(c: char) {
    || '\t' <= c <= '\r'               // tab, line feed, vertical tab, form feed, carriage return
    || c == ' ' || c == '\U{A0}' || c == '\U{1680}'
    || '\U{2000}' <= c <= '\U{200A}'   // en quad .. hair space
    || c == '\U{2028}' || c == '\U{2029}'
    || c == '\U{202F}' || c == '\U{205F}' || c == '\U{3000}' || c == '\U{FEFF}'
  }

  /** Every character of `s` is whitespace (vacuously so for ""). */
  predicate IsBlank(s: string) {
    forall i :: 0 <= i < |s| ==> IsWhitespace(s[i])
  }

  /** The number of whitespace characters `s` starts with. */
  function LeadingBlanks(s: string): (n: nat)
    ensures n <= |s|
    ensures forall i :: 0 <= i < n ==> IsWhitespace(s[i])
    ensures n < |s| ==> !IsWhitespace(s[n])
    decreases |s|
  {
    if s != [] && IsWhitespace(s[0]) then 1 + LeadingBlanks(s[1..]) else 0
  }

  /** The number of whitespace characters `s` ends with. */
  function TrailingBlanks(s: string): (n: nat)
    ensures n <= |s|
    ensures forall i :: |s| - n <= i < |s| ==> IsWhitespace(s[i])
    ensures n < |s| ==> !IsWhitespace(s[|s| - 1 - n])
    decreases |s|
  {
    if s != [] && IsWhitespace(s[|s| - 1]) then 1 + TrailingBlanks(s[..|s| - 1]) else 0
  }

  /** `String.prototype.trim`: `s` without its leading and its trailing
      whitespace. */
  function Trim(s: string): (r: string)
    ensures |r| <= |s|
    ensures r == [] <==> IsBlank(s)
    ensures r != [] ==> !IsWhitespace(r[0]) && !IsWhitespace(r[|r| - 1])
  {
    TrimBlank(s);
    var t := s[LeadingBlanks(s)..];
    t[..|t| - TrailingBlanks(t)]
  }

  lemma {:induction false} TrimBlank(s: string)
    ensures var t := s[LeadingBlanks(s)..]; |t| == TrailingBlanks(t) <==> IsBlank(s)
  {
    var k := LeadingBlanks(s);
    var t := s[k..];
    if k < |s| {
      assert t[0] == s[k] && !IsWhitespace(s[k]);
    }
  }

  /** `r` occurs in `s` at offset `k` with only whitespace around it. */
  ghost predicate IsCoreAt(s: string, k: nat, r: string) {
    && k + |r| <= |s|
    && (forall i :: 0 <= i < |r| ==> r[i] == s[k + i])
    && (forall i :: 0 <= i < k ==> IsWhitespace(s[i]))
    && (forall i :: k + |r| <= i < |s| ==> IsWhitespace(s[i]))
  }

  /** `Trim(s)` is `s` with exactly its leading and trailing whitespace
      cut off: it sits in `s` after the leading blanks, and everything
      after it is whitespace. */
  lemma {:induction false} TrimCore(s: string)
    ensures IsCoreAt(s, LeadingBlanks(s), Trim(s))
  {
    TrimChars(s);
    TrimTail(s);
  }

  lemma {:induction false} TrimChars(s: string)
    ensures forall i :: 0 <= i < |Trim(s)| ==> Trim(s)[i] == s[LeadingBlanks(s) + i]
  {
    var t := s[LeadingBlanks(s)..];
    assert Trim(s) == t[..|t| - TrailingBlanks(t)];
  }

  lemma {:induction false} TrimTail(s: string)
    ensures forall i :: LeadingBlanks(s) + |Trim(s)| <= i < |s| ==> IsWhitespace(s[i])
  {
    var k := LeadingBlanks(s);
    var t := s[k..];
    assert |Trim(s)| == |t| - TrailingBlanks(t);
    forall i | k + |Trim(s)| <= i < |s| ensures IsWhitespace(s[i]) {
      assert s[i] == t[i - k];
    }
  }

  /** Trimming is idempotent. */
  lemma {:induction false} TrimIdempotent(s: string)
    ensures Trim(Trim(s)) == Trim(s)
  {
    TrimTrimmed(Trim(s));
  }

  /** A string without surrounding whitespace is its own trim. */
  lemma {:induction false} TrimTrimmed(s: string)
    requires s != [] ==> !IsWhitespace(s[0]) && !IsWhitespace(s[|s| - 1])
    ensures Trim(s) == s
  {
    assert LeadingBlanks(s) == 0;
    assert s[0..] == s;
    assert TrailingBlanks(s) == 0;
  }

  predicate IsLowerAscii(c: char) {
    'a' <= c <= 'z'
  }

  /** The upper-case form of one character; only ASCII letters change. */
  function UpperChar(c: char): (u: char)
    ensures IsLowerAscii(c) ==> 'A' <= u <= 'Z' && u as int - 'A' as int == c as int - 'a' as int
    ensures !IsLowerAscii(c) ==> u == c
  {
    if IsLowerAscii(c) then (c as int - 32) as char else c
  }

  /** `String.prototype.toUpperCase`, on the ASCII letters. */
  function ToUpper(s: string): (r: string)
    ensures |r| == |s|
    ensures forall i :: 0 <= i < |r| ==> !IsLowerAscii(r[i])
    ensures forall i :: 0 <= i < |r| ==> IsWhitespace(r[i]) == IsWhitespace(s[i])
    ensures forall i :: 0 <= i < |s| && !IsLowerAscii(s[i]) ==> r[i] == s[i]
    ensures forall i :: 0 <= i < |s| && IsLowerAscii(s[i]) ==>
      'A' <= r[i] <= 'Z' && r[i] as int - 'A' as int == s[i] as int - 'a' as int
  {
    seq(|s|, i requires 0 <= i < |s| => UpperChar(s[i]))
  }

  /** Upper-casing is idempotent. */
  lemma ToUpperIdempotent(s: string)
    ensures ToUpper(ToUpper(s)) == ToUpper(s)
  {
  }

  /** `s.startsWith(prefix)`. */
  predicate StartsWith(s: string, prefix: string) {
    |prefix| <= |s| && s[..|prefix|] == prefix
  }

  function DigitChar(d: nat): char
    requires d < 10
  {
    ('0' as int + d) as char
  }

  /** The decimal digits of `n`, most significant first, no leading zero. */
  function NatToString(n: nat): (r: string)
    ensures |r| >= 1
    ensures forall i :: 0 <= i < |r| ==> '0' <= r[i] <= '9'
    ensures r[0] == '0' ==> n == 0
    decreases n
  {
    if n < 10 then [DigitChar(n)] else NatToString(n / 10) + [DigitChar(n % 10)]
  }

  /** How a template literal renders an integer-valued number: an optional
      minus sign, then decimal digits. */
  function IntToString(i: int): (r: string)
    ensures |r| >= 1
    ensures r[0] == '-' <==> i < 0
    ensures forall k :: 1 <= k < |r| ==> '0' <= r[k] <= '9'
  {
    if i < 0 then "-" + NatToString(-i) else NatToString(i)
  }

  /** The number a string of decimal digits denotes, most significant
      digit first. */
  function DecimalValue(s: string): int
    decreases |s|
  {
    if s == [] then 0 else DecimalValue(s[..|s| - 1]) * 10 + (s[|s| - 1] as int - '0' as int)
  }

  /** The number a rendered integer denotes: an optional minus sign, then
      decimal digits. */
  function IntValue(s: string): int {
    if s != [] && s[0] == '-' then -DecimalValue(s[1..]) else DecimalValue(s)
  }

  /** Reading back the digits of `n` gives `n`. */
  lemma {:induction false} NatToStringValue(n: nat)
    ensures DecimalValue(NatToString(n)) == n
    decreases n
  {
    if n >= 10 {
      NatToStringValue(n / 10);
      var r := NatToString(n);
      assert r[..|r| - 1] == NatToString(n / 10);
    }
  }

  /** Reading back a rendered integer gives the integer. */
  lemma IntToStringValue(i: int)
    ensures IntValue(IntToString(i)) == i
  {
    if i < 0 {
      NatToStringValue(-i);
      assert IntToString(i)[1..] == NatToString(-i);
    } else {
      NatToStringValue(i);
    }
  }

  /** Different integers are rendered differently. */
  lemma IntToStringInjective(a: int, b: int)
    ensures IntToString(a) == IntToString(b) <==> a == b
  {
    IntToStringValue(a);
    IntToStringValue(b);
  }
}

=== FILE: wrappers.dfy ===
/** Option and Result: absent values and failed computations, the way the
    modelled code uses `undefined` and thrown errors. */
module Wrappers {

  /** A value that may be absent (`undefined` in TypeScript). */
  datatype Option<+T> = None | Some(value: T) {

    /** The value, or `default` when absent (the `??` operator). */
    function GetOr(default: T): T {
      match this
      case Some(v) => v
      case None => default
    }
  }

  /** The outcome of a call that may throw: a value, or the error message. */
  datatype Result<+R, +E> = Success(value: R) | Failure(error: E)
}
